=== FILE: README.md ===
# rent_house listings pipeline, in Dafny

This project models the scrape-to-storage pipeline of the `rent_house`
Django site (the `listings` app) and the small string rules its analytics
views use. It proves properties of that model.

- **Search URL** (`crawler.dfy`, module `Crawler`). `get_rent_data` of the
  browser crawler builds the search URL step by step. It adds:
  - the cleaned county path;
  - a `_<district>` suffix;
  - one trailing `/`;
  - a query string of `purpid` then `rpid`.

  The methods `BuildSearchUrl` and `BuildQuery` are proved equal to the
  reference functions `SearchUrl` and `QueryString`. Lemmas then state the
  shape of those functions.
- **Listing blocks.** A listing block is an abstract value, `Block`. It holds:
  - the `href` of each anchor (None when absent), one string that both
    crawlers see alike;
  - the text of the `title`, `addr`, `level` and `pattern` elements (None when absent);
  - the texts of the `infos` elements.

  Both extractors are defined on `Block`:
  - The browser crawler (`ExtractBrowser`) drops a block it cannot read. It
    swaps `level` and `pattern`.
  - The HTTP crawler of `crawler_requests.py` (`ExtractHttp`, module
    `CrawlerRequests`) fills `''` instead of dropping anything. It does not
    swap the two fields, and it stores the agent's text under `landlord`.

  The two programs select their blocks differently (the browser crawler
  waits on the result containers, the HTTP crawler takes the `li` items of
  the result list). `CrawlerRequests.SwappedLevelAndPattern` and
  `CrawlerRequests.HttpKeepsDroppedBlocks` compare the two extractors on one
  abstract block, not the two programs on one page.

  Both read the serial as the last `/`-segment of the link. Both read the
  `infos` by their count: 4, 5, or anything else.
- **Paging.** A page is an abstract `Page`: its blocks, whether the link
  to the next page exists, and whether waiting for the list fails. The loop
  `Collect` is proved equal to `ItemsOf(page, PagesRead(page, 1, maxPages))`.
  The lemmas about `PagesRead` say when the crawler stops.
- **Store** (`store.dfy`, module `Store`). The `Listing` table is a class,
  `ListingTable`, over a map from serial to row. Serials are unique because
  the map is keyed by them. The class invariant keeps urls unique.

  `update_or_create` is modelled as insert-or-overwrite. When another row
  holds the url, it fails and leaves the table unchanged, as the
  `IntegrityError` of a unique column does. An item that lacks a required
  key raises `KeyError` and is skipped.

  The loops of `rent_list` and `get_all_rent_list` are methods. Each is
  proved equal to a fold, `Run` or `CountiesRun`. Lemmas about the folds
  say what the counters mean.
- **Cleaners** (`cleaners.dfy`). `clean_rent`, `clean_area` and
  `clean_pattern` of `Listing` are modelled on Python's
  `str.replace(old, '')`, which removes left to right in one pass. The
  `re.search(r'(\d+)房', ...)` call is modelled as a leftmost match with a
  greedy digit run.
- **Views** (`views.dfy`). This covers the city an address is classified
  under in `preprocess_listing_data`: a longest-first prefix search, then a
  substring search in list order. It also covers the whitelist
  normalisation of the `sort`/`order` parameters of `search_database`.
- **Charts** (`charts.dfy`). This covers:
  - `extract_room_type` and `extract_city_from_address`;
  - the `city_to_id` map built from `sorted(column.unique())`;
  - the order of the x-axis categories of `plot_bokeh_bar_chart`.

`text.dfy` and `sorting.dfy` hold the Python and pandas primitives the rest
relies on:
- `str.split`/`join`/`rstrip`/`replace`/`startswith`;
- `in` on strings;
- code-point string order;
- stable `sort(key=...)`;
- `sorted` on strings;
- `list.index`;
- `Series.unique()`.

Three behaviours of the code are worth noting:
- **Missing anchor.** A listing whose detail link is missing is emitted by
  the HTTP crawler with serial `''`. It is not dropped.
  `CrawlerRequests.HttpDegrades` states this.
- **Level and pattern.** The browser crawler's swapped `level`/`pattern`
  mapping is kept as written. `CrawlerRequests.SwappedLevelAndPattern`
  states the difference between the two crawlers.
- **Re-running a batch.** A second run of the same items does not always
  create nothing. It does when the first run had no errors
  (`Store.RerunCreatesNothing`). `Store.RerunCanCreate` exhibits a second
  run that creates a listing: a url conflict in the first run clears before
  the second.

Two facts of the code are worth knowing, and lemmas state both:
- **Two city lists.** The analytics view spells Taipei, Taichung, Tainan
  and Taitung with 台. `extract_city_from_address` spells them with 臺.
  The view's classifier therefore gives an address that starts with
  `台北市` the city `台北市`, while `extract_city_from_address` gives it
  `其他縣市` (`Charts.CityListsDisagree`). This is a statement about the
  two functions only. `prepare_dataframe` applies the chart helper to a
  column `address`, which the `Listing` rows do not have (their field is
  `addr`), so the charts never classify by address at all.
- **Lost landlord.** The storage loops read `agent`. The HTTP crawler
  writes that text under `landlord`, so its items would be stored with an
  empty agent (`Store.HttpItemLosesLandlord`). They never reach storage,
  because `views.py` imports the browser crawler.

The storage loops are therefore fed by `Crawler.AsItem`.

## Model

| member | source | states |
|---|---|---|
| Crawler.BuildSearchUrl | listings/crawler.py:30-56 | The URL built step by step equals the reference `SearchUrl`; with no county it is exactly the base URL. |
| Crawler.BuildQuery | listings/crawler.py:47-54 | The `params` list joined behind `?` equals the reference `QueryString`: empty when neither house type nor rent range is set, otherwise `?purpid=…`, `?rpid=…` or `?purpid=…&rpid=…` in that order. |
| Crawler.PathSegmentsClean | listings/crawler.py:36 | The cleaned county/district part keeps exactly the non-empty segments, contains no `//` and neither starts nor ends with `/`. |
| Crawler.SearchUrlParts | listings/crawler.py:34-54 | A county URL is the base URL, `region/`, the cleaned county, `_<district>` exactly when the district is set and not `全區`, one `/`, then the query string, which is present iff house type or rent range is set. |
| Crawler.Serial | listings/crawler.py:83 | The serial has no `/`. It is a suffix of the href with its trailing `/`s stripped, and it is either all of that text or the part right after a `/`. |
| Crawler.SerialEmptyIffOnlySlashes | listings/crawler.py:83 | The serial is empty exactly when the href is nothing but `/`s. |
| Crawler.ReadInfos | listings/crawler.py:96-107 | With four or five `infos` texts, rent is the first and area, agent and update time are the last three. Parking is the second text with five and `''` otherwise. Any other count leaves every field empty. |
| Crawler.InfoLayout | listings/crawler.py:88-107 | Four `infos` texts fill rent, area, agent and update time and leave parking empty. Five fill rent, parking, area, agent and update time. Any other count leaves all five empty. |
| Crawler.ExtractBrowser | listings/crawler.py:79-112 | A block is skipped iff it is incomplete. A kept listing has the first anchor's href as url and a serial without `/`, and takes `level` from the pattern element and `pattern` from the level element. |
| Crawler.BrowserExtraction | listings/crawler.py:80-94 | A block is dropped iff its first anchor, that anchor's href, or its title, addr, level or pattern element is missing. Otherwise the listing takes the serial from the href, `level` from the pattern element and `pattern` from the level element. |
| Crawler.BrowserItems | listings/crawler.py:78-112 | The listings of a page never outnumber its blocks. |
| Crawler.BrowserItemsAppend | listings/crawler.py:78-112 | The per-block loop composes over concatenated block lists, so it keeps block order. |
| Crawler.SkipsOnlyBadBlock | listings/crawler.py:110-112 | A block that cannot be read removes only its own listing; the listings before and after it are kept in order. |
| Crawler.DroppedBlockShortens | listings/crawler.py:110-112 | A page with an unreadable block yields fewer listings than it has blocks. |
| Crawler.AsItem | listings/crawler.py:82-94 | The browser crawler's dictionary has exactly the 11 keys from serial to url, with no `landlord`. |
| Crawler.AppendItems | listings/crawler.py:78-112 | The loop over a page's blocks appends exactly the listings of its readable blocks, in order. |
| Crawler.Collect | listings/crawler.py:67-134 | The paging loop reads `PagesRead(page, 1, maxPages)` pages and returns the listings of pages 1 to that number, in page order. |
| Crawler.GetRentData | listings/crawler.py:20-138 | If the session cannot open the search URL, the result is empty. Otherwise it is the listings of the pages read, and no more than `maxPages` pages are read (none when `maxPages < 1`). |
| Crawler.PagesRead | listings/crawler.py:71-128 | Starting on page `n`, at most `maxPages - n + 1` pages are read (none past the cap), and at least one when `n` is within the cap. |
| Crawler.PagesReadAdvance | listings/crawler.py:113-128 | Every page before the last one read was full, below the cap and had a next link. The last page read lacked one of those. |
| Crawler.StopsAt | listings/crawler.py:113-132 | When pages `n..j-1` advance and page `j` does not, exactly pages `n..j` are read. |
| Crawler.ShortPageIsLast | listings/crawler.py:113-128 | A page with fewer than ten blocks (zero included) is the last page read. |
| Crawler.PageFailureKeepsEarlierPages | listings/crawler.py:130-134 | A failed wait on page `j` ends the run there, and the listings of pages `1..j-1` are returned. |
| CrawlerRequests.FirstHref | listings/crawler_requests.py:20-21 | The link is `''` when no anchor has an href; otherwise it is the href of the first anchor that has one. |
| CrawlerRequests.AsHttpItem | listings/crawler_requests.py:43-55 | Every record has exactly the 11 keys serial, title, addr, level, pattern, rent, parking, area, landlord, update_time and url; `landlord` holds the agent text. |
| CrawlerRequests.Scrape | listings/crawler_requests.py:12-63 | A failed request gives `[]`. Otherwise there is one record per block, in block order, each built from its own block. |
| CrawlerRequests.ExtractHttp | listings/crawler_requests.py:20-41 | The url is the first href found (or `''`). The serial is the last `/`-segment of that url, and `''` without one. A present title, addr, level or pattern element keeps its own text, with no swap. The remaining fields follow the 4/5 `infos` layout. |
| CrawlerRequests.HttpRecordsAt | listings/crawler_requests.py:18-56 | The loop's records are one per block, and the record at each position is built from the block at that position alone. |
| CrawlerRequests.HttpDegrades | listings/crawler_requests.py:20-41 | No anchor with an href gives url and serial `''`. A missing element gives `''` for that field. An `infos` count other than 4 or 5 leaves rent, parking, area, agent and update time empty. |
| CrawlerRequests.SwappedLevelAndPattern | listings/crawler_requests.py:25-26 | On a block both crawlers read, the HTTP `level` is the browser `pattern` and vice versa; serial, url and the other fields agree. |
| CrawlerRequests.HttpKeepsDroppedBlocks | listings/crawler_requests.py:18-56 | A block the browser crawler drops still yields the HTTP record built from it, at its own position among one record per block, while the browser crawler returns fewer listings than there are blocks. |
| Cleaners.CleanRent | listings/models.py:68-70 | The cleaned rent contains no `,` and is never longer than the input. |
| Cleaners.CleanRentOfPrice | listings/models.py:68-70 | For a price followed by `元/月` (with no `元` in the price), the result is the price with its commas removed. |
| Cleaners.CleanRentOfPriceDigits | listings/models.py:68-70 | A price of digits and commas followed by `元/月` cleans to all digits. |
| Cleaners.RentUnitSurvivesUnit | listings/models.py:68-70 | `元/月` can remain after cleaning: removing every occurrence in one pass re-forms it from `元/元/月月`. |
| Cleaners.RentUnitSurvivesComma | listings/models.py:68-70 | `元/,月` cleans to `元/月`, because commas are removed after the unit. |
| Cleaners.CleanArea | listings/models.py:72-74 | The cleaned area is the input with every `坪` deleted and every other character kept, in order (the filter `Without`). So it has no `坪`, its length is the input length minus the number of `坪`, and an input without `坪` is unchanged. |
| Cleaners.AreaOfNumber | listings/models.py:72-74 | A number followed by `坪` (with no `坪` in the number) cleans to the number. |
| Cleaners.DigitRunEnd | listings/models.py:78 | The greedy `\d+` ends at the first non-digit after its start. |
| Cleaners.SearchFrom | listings/models.py:78 | `re.search` finds the leftmost position where `\d+房` matches, or reports that none matches. |
| Cleaners.CleanPattern | listings/models.py:76-79 | The room count is `''` or all digits, and when non-empty it occurs in the pattern followed by `房`. |
| Cleaners.RoomDigits | listings/models.py:78-79 | A match of `(\d+)房` yields a non-empty group of digits. |
| Cleaners.CleanPatternLeftmost | listings/models.py:78-79 | The room count is `''` iff no `房` follows a digit. Otherwise it is the maximal digit run ending at the leftmost `房` that follows a digit. |
| Store.UpsertResultOf | listings/views.py:186-189 | `created` implies the serial was absent and an update implies it was present. Neither happens when another row holds the url. Re-saving a row under its own url in a table with unique urls is always an update. |
| Store.Upsert | listings/views.py:186-189 | A url held by another row leaves the table unchanged. Otherwise the serial's row becomes the new row, the serial is added, and every other row is unchanged. |
| Store.UpsertSpec | listings/models.py:41-55 | `created` holds iff the serial was absent and the url free; an update happens iff the serial was present and the url free. Urls stay unique, and the table grows by one exactly on creation. |
| Store.ListingTable.UpdateOrCreate | listings/views.py:186-189 | `update_or_create` reports the `UpsertResultOf` outcome, makes the table `Upsert` of the old table and keeps urls unique. |
| Store.ListingTable.SaveCrawl | listings/views.py:169-196 | The `rent_list` loop leaves the table, the saved serials and the new count equal to `Run` over the crawled items. |
| Store.ListingTable.SaveCountyItems | listings/views.py:259-281 | The per-item loop of `get_all_rent_list` continues the counters exactly as `RunFrom` does. |
| Store.ListingTable.SaveAllCounties | listings/views.py:236-285 | The all-counties loop leaves the table, the new count and the error count equal to `CountiesRun` over the six counties. |
| Store.RowOf | listings/views.py:173-184 | The `defaults` take title, addr, level, pattern, rent, area and url from the item; parking, agent and update_time are read with a `''` default. |
| Store.Record | listings/views.py:171-196 | One item is either stored or counted as an error. Counts never decrease, rows are never removed, and an item that raised no error has its serial in the table. |
| Store.RunFrom | listings/views.py:171-196 | The loop over the items counts each item once, as stored or as an error. The counters never decrease, and no row is removed. |
| Store.RunFromCounts | listings/views.py:191-205 | Stored items plus errors equal the number of items, and the new count never exceeds the stored count. The new count is the number of rows gained. Rows are never removed, and urls stay unique. |
| Store.RunCounts | listings/views.py:191-205 | From zeroed counters, `new_count <= total_count` and `total_count + errors == len(items)`. |
| Store.RunFromAppend | listings/views.py:171-196 | Running the loop over `xs + ys` is running it over `xs` and then over `ys`. |
| Store.RunFromMoreErrors | listings/views.py:246-257 | An error counted before a loop only shifts the final error count. |
| Store.SavedSerialsHaveRows | listings/views.py:186-193 | Every serial stored during the run still has a row when the run ends. |
| Store.NoErrorsAllPresent | listings/views.py:186-193 | After a run without errors, every item's serial has a row. |
| Store.AllPresentCreatesNothing | listings/views.py:186-192 | A run in which every item's serial already has a row creates nothing. |
| Store.RerunCreatesNothing | listings/views.py:186-192 | Re-running the same items after a run without errors gives `new_count == 0`. |
| Store.RerunCanCreate | listings/models.py:41-55 | For two items with different serials and urls, run against a table holding only the second serial under the first url: the first run reports one conflict, and a second run of the same items creates a listing. |
| Store.BrowserItemStored | listings/views.py:173-184 | A browser-crawler listing has every required key and is stored field for field. |
| Store.HttpItemLosesLandlord | listings/crawler_requests.py:52 | An HTTP-crawler listing is storable, and it would be stored field for field except that its agent column is empty, because its text sits under `landlord`. |
| Store.ParkingChoicesNotEnforced | listings/models.py:47-51 | Any listing whose parking text is outside the declared choices is stored, with that parking text, by `update_or_create`. |
| Store.CrawlFailures | listings/views.py:246-257 | At most one crawl failure is counted per county. |
| Store.CountiesRun | listings/views.py:244-281 | The all-counties loop never removes a row, and its error count is at least the number of failed crawls. |
| Store.CountiesAsOneBatch | listings/views.py:244-281 | A failed county does not stop the others. The all-counties run equals one batch over the crawled items, in county order, and its error count is crawl failures plus save failures. |
| Views.LongestFirst | listings/views.py:838 | `sorted(cities, key=len, reverse=True)` is a permutation of the names (same multiset) ordered by non-increasing length. |
| Views.LongestFirstSameLength | listings/views.py:838 | Names of one length keep their list order under that sort. |
| Views.ClassifyIn | listings/views.py:844-857 | The class is `其他` or one of the listed cities. |
| Views.ClassifyCity | listings/views.py:825-857 | The class of an address is `其他` or a key of `TAIWAN_CITIES`. |
| Views.ClassifyInByPrefix | listings/views.py:844-849 | For equal-length names, an address that starts with a listed name is classified as that name. |
| Views.ClassifyInBySubstring | listings/views.py:851-855 | For any city list, when no listed name starts the address, the class is the first name in list order that occurs in the address, and `其他` when none does. |
| Views.ClassifyByPrefix | listings/views.py:825-849 | An address that starts with a key of `TAIWAN_CITIES` is classified as that key. |
| Views.NormaliseSort | listings/views.py:349-355 | A sort value outside the 9-column whitelist (or absent) becomes `serial`, and a whitelisted one is kept. The order is `desc` iff `desc` was asked, else `asc`. The prefix is `-` iff the order is `desc`. |
| Views.NormaliseSortIdempotent | listings/views.py:349-355 | Normalising already-normalised parameters changes nothing. |
| Charts.ExtractRoomType | listings/bokeh_charts.py:30-40 | A non-string gives `其他`. Otherwise the result is `其他`, `4房以上` or `<digits>房` with a value below 4. |
| Charts.RoomCountOfGroup | listings/bokeh_charts.py:36 | Removing `房` from the matched group gives back its digits. |
| Charts.RoomTypeAgreesWithCleanPattern | listings/bokeh_charts.py:34-40 | The room type follows `clean_pattern`'s match: `其他` when it is `''`, `4房以上` when its value is at least 4, and its digits plus `房` otherwise. |
| Charts.CityFromAddressIn | listings/bokeh_charts.py:42-54 | A non-string gives `未知縣市`. A string gives a listed city or `其他縣市`: `其他縣市` when no listed city starts it, and otherwise the first listed city, in list order, that starts it. |
| Charts.ExtractCityFromAddress | listings/bokeh_charts.py:42-54 | The result is `未知縣市`, `其他縣市` or a city of the chart list. |
| Charts.CityFromAddressFirst | listings/bokeh_charts.py:50-54 | For equal-length names, the result is the listed city the address starts with, and `其他縣市` when there is none. |
| Charts.ChartCitiesAvoidTai | listings/bokeh_charts.py:47-50 | No city of the chart list starts with `台`. |
| Charts.TaiAddressIsOtherCounty | listings/bokeh_charts.py:47-54 | An address that starts with `台` is put under `其他縣市`. |
| Charts.CityListsDisagree | listings/bokeh_charts.py:47-54 | An address that starts with `台北市` is `台北市` for the view's classifier and `其他縣市` for `extract_city_from_address`. |
| Charts.CityIds | listings/bokeh_charts.py:83-84 | `city_to_id` has an id for exactly the values of the column. |
| Charts.CityIdsArePositions | listings/bokeh_charts.py:83-84 | The ids are the positions of the distinct cities in sorted order: the id list is sorted, has no repeats and covers the column. |
| Charts.CityIdsBijective | listings/bokeh_charts.py:83-84 | Every id is below the number of cities and no two cities share one, so the ids number the cities `0..n-1`. |
| Charts.CityIdsFollowSortedOrder | listings/bokeh_charts.py:83-84 | One city has a smaller id than another iff it sorts before it. |
| Charts.CustomKey | listings/bokeh_charts.py:112-118 | A listed category's key is its index in the custom order; an unlisted one gets one past the end. |
| Charts.SortByCustomOrder | listings/bokeh_charts.py:110-118 | The custom-order sort is a permutation of the categories. |
| Charts.XRangeCategories | listings/bokeh_charts.py:108-120 | The x-axis categories are a permutation of the column's distinct values. |
| Charts.CustomOrderSort | listings/bokeh_charts.py:110-118 | Listed categories come in custom order and before every unlisted one. Unlisted categories keep their order of first appearance, because the sort is stable. |
| Charts.PlainCategories | listings/bokeh_charts.py:119-120 | Without a custom order, the categories are sorted as strings, each once. |

## Left out

- Browser automation and HTTP fetching are replaced by abstract inputs:
  - undetected-chromedriver, `WebDriverWait` and the scroll/click on the
    next-page link become `Page` (its blocks, `hasNext`, `waitFails`);
  - `requests.get` and BeautifulSoup become `Response`;
  - an opened session becomes a function from page number to `Page`.

  A failed click on the next-page link is modelled as `hasNext == false`.
- The `finally: driver.quit()` of `get_rent_data` is not modelled. When
  Chrome fails to start, `driver` is unbound and this clause raises, so the
  call raises instead of returning `[]`. The storage loops see that as a
  crawl failure (`Crawl.CrawlFailed`). `Crawler.GetRentData` models a
  started session only.
- Whitespace is not modelled. Element texts are taken as the crawler reads
  them, and neither Selenium's `.text` trimming nor BeautifulSoup's
  `get_text(strip=True)` is modelled.
- The per-block `except` of the HTTP crawler is not modelled. Every lookup
  in the model is guarded, so no block raises.
- `Cleaners.RoomDigits`: `\d` is modelled as the ASCII digits `0`-`9`.
  Python's `\d` also matches other Unicode decimal digits.
- `Cleaners.CleanRent`: a rent of `None` is not modelled. The column is
  nullable, and `clean_rent` would raise on it.
- `Cleaners.CleanArea`: an area of `None` is not modelled. The column is
  nullable, and `clean_area` would raise on it.
- `CrawlerRequests.SwappedLevelAndPattern`: anchors carry one href string
  that both crawlers read, as if it were already resolved. Selenium's
  `get_attribute('href')` returns the absolute URL of a relative link,
  while BeautifulSoup returns the attribute text as written. For relative
  links the two crawlers' `url` (and, for links such as `..`, `serial`)
  can differ, which the lemma's agreement on url and serial does not
  capture.
- Column `max_length` limits are not modelled, because whether they are
  enforced depends on the database backend.
- `created_at`/`updated_at`, history/auditlog, geocoding and `location`
  are not modelled.
- The filters, regex and `Cast` annotations of `search_database` other than
  the sort normalisation are not modelled, and neither is the `order_by`
  argument built from the normalised sort. Neither are the template
  context, rendering and JSON responses.
- The numeric and plotting code of the analytics views is not modelled:
  NaN, medians, quantiles, Bokeh and matplotlib figures, and
  `room_cleaned`.
- Throttling sleeps, printing, and the user, auth and admin views are not
  modelled.
- `Store.ListingTable.SaveCrawl`: `current_listings` is modelled as the
  list of stored serials, not as `Listing` objects.
- `Store.RerunCreatesNothing`: re-running the same items creates nothing
  only when the first run had no errors. In general it is false, as
  `Store.RerunCanCreate` shows.
- The rent cleaning that `search_database` performs in SQL is not
  modelled. It removes `,` before `元/月`, the reverse of
  `Listing.clean_rent`.

=== FILE: charts.dfy ===
/** The string helpers of listings/bokeh_charts.py: the room type and the
    city of a listing, the numeric id of each city, and the order of the
    categories on a bar chart's x axis. An input that is not a string (a
    missing value of the data frame) is None. */
module Charts {
  import opened Text
  import opened Sorting
  import Cleaners
  import Views

  // ---------------------------------------------------------------------
  // extract_room_type

  const OtherRoomType: string := "其他"
  const FourOrMore: string := "4房以上"

  /** `extract_room_type`. */
  function ExtractRoomType(pattern: Option<string>): (r: string)
    ensures pattern.None? ==> r == OtherRoomType
    ensures r == OtherRoomType || r == FourOrMore ||
            (|r| >= 2 && r[|r| - 1] == Cleaners.Room &&
             var d := r[..|r| - 1]; d != "" && AllDigits(d) && DecimalValue(d) < 4)
  {
    if pattern.None? then OtherRoomType
    else match Cleaners.RoomDigits(pattern.value)
      case None => OtherRoomType
      case Some(d) =>
        var group := d + [Cleaners.Room];
        var count := ReplaceAll(group, [Cleaners.Room], "");
        RoomCountOfGroup(d);
        if DecimalValue(count) >= 4 then FourOrMore
        else
          assert group[..|group| - 1] == d;
          group
  }

  /** `int(group.replace('房', ''))` reads the digits of the match. */
  lemma RoomCountOfGroup(d: string)
    requires AllDigits(d)
    ensures ReplaceAll(d + [Cleaners.Room], [Cleaners.Room], "") == d
  {
    assert Cleaners.Room !in d by {
      forall i | 0 <= i < |d| ensures d[i] != Cleaners.Room { assert IsDigit(d[i]); }
    }
    Cleaners.RemoveTrailing(d, [Cleaners.Room]);
  }

  /** `extract_room_type` and `clean_pattern` read the same match: the
      room type is `其他` when `clean_pattern` finds nothing, `4房以上`
      when its number is at least four, and its digits followed by `房`
      otherwise. */
  lemma RoomTypeAgreesWithCleanPattern(pattern: string)
    ensures var d := Cleaners.CleanPattern(pattern);
      (d == "" ==> ExtractRoomType(Some(pattern)) == OtherRoomType) &&
      (d != "" && AllDigits(d) && DecimalValue(d) >= 4 ==> ExtractRoomType(Some(pattern)) == FourOrMore) &&
      (d != "" && AllDigits(d) && DecimalValue(d) < 4 ==>
         ExtractRoomType(Some(pattern)) == d + [Cleaners.Room])
  {
    match Cleaners.SearchFrom(pattern, 0)
    case None =>
    case Some(i) =>
      RoomCountOfGroup(pattern[i..Cleaners.DigitRunEnd(pattern, i)]);
  }

  // ---------------------------------------------------------------------
  // extract_city_from_address

  /** The city list of `extract_city_from_address`, in its order. */
  const ChartCities: seq<string> := [
    "臺北市", "新北市", "桃園市", "臺中市", "臺南市", "高雄市",
    "新竹市", "新竹縣", "苗栗縣", "彰化縣", "南投縣", "雲林縣",
    "嘉義市", "嘉義縣", "屏東縣", "宜蘭縣", "花蓮縣", "臺東縣",
    "澎湖縣", "金門縣", "連江縣"]

  const UnknownCity: string := "未知縣市"
  const OtherCounty: string := "其他縣市"

  /** The loop of `extract_city_from_address` over a city list. */
  function CityFromAddressIn(cities: seq<string>, address: Option<string>): (city: string)
    ensures address.None? ==> city == UnknownCity
    ensures address.Some? ==> city == OtherCounty || city in cities
    ensures address.Some? && (forall j :: 0 <= j < |cities| ==> !StartsWith(address.value, cities[j])) ==>
      city == OtherCounty
    ensures address.Some? && (exists j :: 0 <= j < |cities| && StartsWith(address.value, cities[j])) ==>
      exists k :: 0 <= k < |cities| && city == cities[k] && StartsWith(address.value, cities[k]) &&
        forall j :: 0 <= j < k ==> !StartsWith(address.value, cities[j])
  {
    if address.None? then UnknownCity
    else match FirstPrefix(cities, address.value)
      case Some(k) => cities[k]
      case None => OtherCounty
  }

  /** `extract_city_from_address`. */
  function ExtractCityFromAddress(address: Option<string>): (city: string)
    ensures city == UnknownCity || city == OtherCounty || city in ChartCities
  {
    CityFromAddressIn(ChartCities, address)
  }

  /** The result is the first listed city the address starts with, and
      `其他縣市` when there is none; when all names have one length it is
      the only listed city the address starts with. */
  lemma {:induction false} CityFromAddressFirst(cities: seq<string>, n: nat, address: string)
    requires forall j :: 0 <= j < |cities| ==> |cities[j]| == n
    ensures (forall j :: 0 <= j < |cities| ==> !StartsWith(address, cities[j])) ==>
            CityFromAddressIn(cities, Some(address)) == OtherCounty
    ensures forall j :: 0 <= j < |cities| && StartsWith(address, cities[j]) ==>
            CityFromAddressIn(cities, Some(address)) == cities[j]
  {
    var k := FirstPrefix(cities, address);
    if k.Some? {
      forall j | 0 <= j < |cities| && StartsWith(address, cities[j])
        ensures cities[k.value] == cities[j]
      {
        SamePrefix(address, cities[k.value], cities[j]);
      }
    }
  }

  /** No name in the chart city list starts with 台: the list spells
      those names with 臺. */
  lemma ChartCitiesAvoidTai()
    ensures forall j :: 0 <= j < |ChartCities| ==> ChartCities[j][0] != '台'
  {
  }

  /** An address that starts with 台 names no city of the chart list. */
  lemma TaiAddressIsOtherCounty(address: string)
    requires address != "" && address[0] == '台'
    ensures ExtractCityFromAddress(Some(address)) == OtherCounty
  {
    ChartCitiesAvoidTai();
    CityFromAddressFirst(ChartCities, 3, address);
  }

  /** The two city lists of the project disagree: the analytics view
      classifies an address written with 台 under its city, while the
      chart helper puts the same address under `其他縣市`. */
  lemma CityListsDisagree(address: string)
    requires StartsWith(address, "台北市")
    ensures Views.ClassifyCity(address) == "台北市"
    ensures ExtractCityFromAddress(Some(address)) == OtherCounty
  {
    assert address[0] == "台北市"[0] == '台';
    TaiAddressIsOtherCounty(address);
    Views.ClassifyByPrefix(address, 0);
  }

  // ---------------------------------------------------------------------
  // city_to_id

  /** `{city: i for i, city in enumerate(sorted(column.unique()))}`. */
  function CityIds(column: seq<string>): (ids: map<string, nat>)
    ensures ids.Keys == set i | 0 <= i < |column| :: column[i]
  {
    var cities := SortStrings(Unique(column));
    assert forall z :: z in cities <==> z in column by {
      forall z ensures z in Unique(column) <==> z in column {
        if z in column {
          var i :| 0 <= i < |column| && column[i] == z;
        }
      }
    }
    PositionKeys(cities, column);
    map i | 0 <= i < |cities| :: cities[i] := i
  }

  /** Numbering the elements of a sequence with the same elements as
      `column` gives every value of `column` a number, and nothing else. */
  lemma PositionKeys(cities: seq<string>, column: seq<string>)
    requires forall i, j :: 0 <= i < j < |cities| ==> cities[i] != cities[j]
    requires forall z :: z in cities <==> z in column
    ensures (map i | 0 <= i < |cities| :: cities[i] := i).Keys == set i | 0 <= i < |column| :: column[i]
  {
    var ids := map i | 0 <= i < |cities| :: cities[i] := i;
    forall x | x in ids ensures x in column {
      var i :| 0 <= i < |cities| && cities[i] == x;
      assert cities[i] in cities;
    }
    forall i | 0 <= i < |column| ensures column[i] in ids {
      assert column[i] in cities;
      var k :| 0 <= k < |cities| && cities[k] == column[i];
    }
  }

  /** The id of a city is its position in the sorted distinct cities. */
  lemma CityIdsArePositions(column: seq<string>)
    ensures var cities := SortStrings(Unique(column)); var ids := CityIds(column);
      (forall c :: c in ids ==> ids[c] < |cities| && cities[ids[c]] == c) &&
      |ids| == |cities| && LexSorted(cities) && Distinct(cities)
  {
    var cities := SortStrings(Unique(column));
    var ids := CityIds(column);
    assert forall i :: 0 <= i < |cities| ==> cities[i] in ids && ids[cities[i]] == i;
    assert ids.Keys == set i | 0 <= i < |cities| :: cities[i];
    CardDistinct(cities);
  }

  /** The ids number the distinct cities `0 .. n-1`: every id is below the
      number of cities and two cities never share an id. */
  lemma CityIdsBijective(column: seq<string>)
    ensures var ids := CityIds(column);
      (forall c :: c in ids ==> ids[c] < |ids|) &&
      (forall c, c' :: c in ids && c' in ids && c != c' ==> ids[c] != ids[c'])
  {
    CityIdsArePositions(column);
  }

  /** The id order is the string order of the cities. */
  lemma CityIdsFollowSortedOrder(column: seq<string>, c: string, c': string)
    requires c in CityIds(column) && c' in CityIds(column)
    ensures LexLess(c, c') <==> CityIds(column)[c] < CityIds(column)[c']
  {
    CityIdsArePositions(column);
    var cities := SortStrings(Unique(column));
    var i, j := CityIds(column)[c], CityIds(column)[c'];
    assert cities[i] == c && cities[j] == c';
    if i < j {
      SortedDistinctIncreasing(cities, i, j);
      LexAsymmetric(c, c');
    } else if j < i {
      SortedDistinctIncreasing(cities, j, i);
      LexAsymmetric(c', c);
    } else {
      LexIrreflexive(c);
    }
  }

  /** A sequence without repeats has as many distinct elements as it is
      long. */
  lemma {:induction false} CardDistinct(xs: seq<string>)
    requires Distinct(xs)
    ensures |set i | 0 <= i < |xs| :: xs[i]| == |xs|
  {
    if xs != [] {
      var init := xs[..|xs| - 1];
      CardDistinct(init);
      var s := set i | 0 <= i < |init| :: init[i];
      assert (set i | 0 <= i < |xs| :: xs[i]) == s + {xs[|xs| - 1]};
      assert xs[|xs| - 1] !in s;
    }
  }

  // ---------------------------------------------------------------------
  // x_range_categories

  const RentBands: seq<string> := ["<5K", "5K-10K", "10K-15K", "15K-20K", "20K-25K", "25K-30K", ">30K"]
  const AreaBands: seq<string> := ["<5坪", "5-10坪", "10-15坪", "15-20坪", "20-25坪", "25-30坪", ">30坪"]
  const RoomTypes: seq<string> := ["1房", "2房", "3房", "4房以上", "其他", "未知"]

  /** The sort key of the custom orders: the position in the order, and
      one past its end for a category it does not list. */
  function CustomKey(order: seq<string>, x: string): (k: nat)
    ensures k <= |order|
    ensures k == |order| <==> x !in order
    ensures k < |order| ==> order[k] == x
  {
    if x in order then IndexOf(order, x) else |order|
  }

  /** `x_range_categories.sort(key=...)` for a custom order. */
  function SortByCustomOrder(order: seq<string>, categories: seq<string>): (r: seq<string>)
    ensures multiset(r) == multiset(categories)
  {
    SortBy(categories, (x: string) => CustomKey(order, x))
  }

  /** The x-axis categories of `plot_bokeh_bar_chart`: the distinct values
      of the column, in the custom order the axis label selects, or sorted
      as strings. */
  function XRangeCategories(column: seq<string>, xLabel: string): (r: seq<string>)
    ensures multiset(r) == multiset(Unique(column))
  {
    var categories := Unique(column);
    if Contains(xLabel, "租金區間") then SortByCustomOrder(RentBands, categories)
    else if Contains(xLabel, "坪數區間") then SortByCustomOrder(AreaBands, categories)
    else if Contains(xLabel, "房型") then SortByCustomOrder(RoomTypes, categories)
    else SortStrings(categories)
  }

  /** Categories the order lists come in its order and before every other
      category; the others, exactly those whose key is one past the end of
      the order, keep their order of first appearance. */
  lemma CustomOrderSort(order: seq<string>, categories: seq<string>)
    ensures var r := SortByCustomOrder(order, categories);
      (forall i, j :: 0 <= i < j < |r| && r[i] in order && r[j] in order ==>
         IndexOf(order, r[i]) <= IndexOf(order, r[j])) &&
      (forall i, j :: 0 <= i < |r| && 0 <= j < |r| && r[i] in order && r[j] !in order ==> i < j)
    ensures WithKey(SortByCustomOrder(order, categories), (x: string) => CustomKey(order, x), |order|) ==
            WithKey(categories, (x: string) => CustomKey(order, x), |order|)
  {
    var key := (x: string) => CustomKey(order, x);
    var r := SortByCustomOrder(order, categories);
    assert SortedBy(r, key);
    forall i, j | 0 <= i < |r| && 0 <= j < |r| && r[i] in order && r[j] !in order
      ensures i < j
    {
    }
    SortByStable(categories, key, |order|);
  }

  /** Without a custom order the categories are sorted as strings, each
      once. */
  lemma PlainCategories(column: seq<string>, xLabel: string)
    requires !Contains(xLabel, "租金區間") && !Contains(xLabel, "坪數區間") && !Contains(xLabel, "房型")
    ensures LexSorted(XRangeCategories(column, xLabel)) && Distinct(XRangeCategories(column, xLabel))
  {
  }
}

=== FILE: cleaners.dfy ===
/** The cleaning helpers of `Listing` (listings/models.py): `clean_rent`,
    `clean_area` and `clean_pattern`. */
module Cleaners {
  import opened Text

  /** The unit suffix of a rent text, "yuan per month". */
  const RentUnit: string := "元/月"

  /** The unit suffix of an area text, "ping". */
  const AreaUnit: char := '坪'

  /** The room marker that follows the number of rooms. */
  const Room: char := '房'

  // ---------------------------------------------------------------------
  // clean_rent, clean_area

  /** `rent.replace('元/月', '').replace(',', '')`. */
  function CleanRent(rent: string): (r: string)
    ensures ',' !in r
    ensures |r| <= |rent|
  {
    var noUnit := ReplaceAll(rent, RentUnit, "");
    RemoveShrinks(rent, RentUnit);
    RemoveChar(noUnit, ',');
    ReplaceAll(noUnit, [','], "")
  }

  /** Removing a pattern whose first character does not occur changes
      nothing. */
  lemma {:induction false} RemoveAbsent(s: string, pat: string)
    requires pat != [] && pat[0] !in s
    ensures ReplaceAll(s, pat, "") == s
    decreases |s|
  {
    if |s| >= |pat| {
      assert s[0] != pat[0];
      assert s[..|pat|] != pat;
      RemoveAbsent(s[1..], pat);
      assert s == [s[0]] + s[1..];
    }
  }

  /** Removing a pattern from a text that ends with it, and whose first
      character appears nowhere before it, leaves the text before it. */
  lemma {:induction false} RemoveTrailing(d: string, pat: string)
    requires pat != [] && pat[0] !in d
    ensures ReplaceAll(d + pat, pat, "") == d
    decreases |d|
  {
    if d == [] {
      assert d + pat == pat;
      assert ReplaceAll(pat[|pat|..], pat, "") == "";
    } else {
      assert (d + pat)[0] == d[0] != pat[0];
      assert (d + pat)[..|pat|] != pat;
      assert (d + pat)[1..] == d[1..] + pat;
      RemoveTrailing(d[1..], pat);
      assert d == [d[0]] + d[1..];
    }
  }

  /** For the texts the site shows, a number with thousands separators
      followed by the unit, the result is the number without separators. */
  lemma CleanRentOfPrice(d: string)
    requires '元' !in d
    ensures CleanRent(d + RentUnit) == ReplaceAll(d, [','], "")
  {
    RemoveTrailing(d, RentUnit);
  }

  predicate AllDigitsOrComma(s: string)
  {
    forall i :: 0 <= i < |s| ==> IsDigit(s[i]) || s[i] == ','
  }

  /** ... and that number is all digits. */
  lemma CleanRentOfPriceDigits(d: string)
    requires AllDigitsOrComma(d)
    ensures AllDigits(CleanRent(d + RentUnit))
  {
    assert '元' !in d by {
      forall i | 0 <= i < |d| ensures d[i] != '元' { assert IsDigit(d[i]) || d[i] == ','; }
    }
    CleanRentOfPrice(d);
    var r := ReplaceAll(d, [','], "");
    RemoveChar(d, ',');
    forall i | 0 <= i < |r| ensures IsDigit(r[i]) {
      assert r[i] in r && r[i] != ',';
      assert r[i] in d;
    }
  }

  /** The unit can survive: removing it in one pass can form it again
      from the text around a removed unit. */
  lemma RentUnitSurvivesUnit()
    ensures CleanRent("元/元/月月") == RentUnit
  {
    assert "元/元/月月"[..3][2] != RentUnit[2];
    assert "元/元/月月"[1..] == "/元/月月";
    assert "/元/月月"[..3][0] != RentUnit[0];
    assert "/元/月月"[1..] == "元/月月";
    assert "元/月月"[..3] == RentUnit;
    assert "元/月月"[3..] == "月";
    assert ReplaceAll("元/元/月月", RentUnit, "") == RentUnit;
    RemoveAbsent(RentUnit, [',']);
  }

  /** ... and from the text around a removed comma, since commas go
      after the unit. */
  lemma RentUnitSurvivesComma()
    ensures CleanRent("元/,月") == RentUnit
  {
    assert "元/,月"[..3][2] != RentUnit[2];
    assert "元/,月"[1..] == "/,月";
    assert "/,月"[..3][0] != RentUnit[0];
    assert "/,月"[1..] == ",月";
    assert ReplaceAll("元/,月", RentUnit, "") == "元/,月";
    assert ",月"[..1] == [','] && ",月"[1..] == "月";
    assert ReplaceAll(",月", [','], "") == "月";
    assert "/,月"[..1] != [','];
    assert ReplaceAll("/,月", [','], "") == "/月";
    assert "元/,月"[..1] != [','];
  }

  /** `area.replace('坪', '')`. */
  function CleanArea(area: string): (r: string)
    ensures r == Without(area, AreaUnit)
    ensures AreaUnit !in r
    ensures |r| == |area| - Count(area, AreaUnit)
    ensures forall c :: c != AreaUnit ==> (c in r <==> c in area)
    ensures AreaUnit !in area ==> r == area
  {
    RemoveChar(area, AreaUnit);
    ReplaceAll(area, [AreaUnit], "")
  }

  /** For the texts the site shows, a number followed by the unit, the
      result is the number. */
  lemma AreaOfNumber(d: string)
    requires AreaUnit !in d
    ensures CleanArea(d + [AreaUnit]) == d
  {
    RemoveTrailing(d, [AreaUnit]);
  }

  // ---------------------------------------------------------------------
  // clean_pattern: re.search(r'(\d+)房', pattern)

  /** The end of the run of decimal digits that starts at `i`. */
  function DigitRunEnd(s: string, i: nat): (j: nat)
    requires i <= |s|
    ensures i <= j <= |s|
    ensures forall k :: i <= k < j ==> IsDigit(s[k])
    ensures j == |s| || !IsDigit(s[j])
    decreases |s| - i
  {
    if i < |s| && IsDigit(s[i]) then DigitRunEnd(s, i + 1) else i
  }

  /** `(\d+)房` matches at `i`. The greedy `\d+` takes the whole run of
      digits, and giving digits back cannot help, since the character
      before the marker would then be a digit. */
  predicate MatchesAt(s: string, i: nat)
    requires i <= |s|
  {
    i < |s| && IsDigit(s[i]) && DigitRunEnd(s, i) < |s| && s[DigitRunEnd(s, i)] == Room
  }

  /** The leftmost match at `i` or later. */
  function SearchFrom(s: string, i: nat): (m: Option<nat>)
    requires i <= |s|
    ensures m.Some? ==> i <= m.value < |s| && MatchesAt(s, m.value) &&
                        forall k :: i <= k < m.value ==> !MatchesAt(s, k)
    ensures m.None? ==> forall k :: i <= k <= |s| ==> !MatchesAt(s, k)
    decreases |s| - i
  {
    if i == |s| then None
    else if MatchesAt(s, i) then Some(i)
    else SearchFrom(s, i + 1)
  }

  /** `group(1)` of `re.search(r'(\d+)房', s)`, None when nothing matches. */
  function RoomDigits(s: string): (d: Option<string>)
    ensures d.Some? ==> d.value != "" && AllDigits(d.value)
  {
    match SearchFrom(s, 0)
    case None => None
    case Some(i) => Some(s[i..DigitRunEnd(s, i)])
  }

  /** `clean_pattern`: the number of rooms, or '' when there is none. */
  function CleanPattern(pattern: string): (r: string)
    ensures r == "" || (AllDigits(r) && Contains(pattern, r + [Room]))
  {
    match SearchFrom(pattern, 0)
    case None => ""
    case Some(i) =>
      var j := DigitRunEnd(pattern, i);
      assert pattern[i..j + 1] == pattern[i..j] + [Room];
      assert OccursAt(pattern, pattern[i..j] + [Room], i);
      pattern[i..j]
  }

  /** The room marker sits at `k` right behind a digit. */
  predicate RoomAfterDigit(s: string, k: int)
  {
    1 <= k < |s| && s[k] == Room && IsDigit(s[k - 1])
  }

  /** A marker behind a digit means a match starts at that digit. */
  lemma MatchBeforeRoom(s: string, k: int)
    requires RoomAfterDigit(s, k)
    ensures MatchesAt(s, k - 1) && DigitRunEnd(s, k - 1) == k
  {
  }

  /** A match right behind a digit is not the leftmost one. */
  lemma MatchExtendsLeft(s: string, i: nat)
    requires 0 < i <= |s| && IsDigit(s[i - 1]) && MatchesAt(s, i)
    ensures MatchesAt(s, i - 1)
  {
  }

  /** `clean_pattern` finds the digit run that ends at the leftmost room
      marker preceded by a digit, and the whole of that run; it is empty
      exactly when no marker follows a digit. */
  lemma {:induction false} CleanPatternLeftmost(pattern: string)
    ensures CleanPattern(pattern) == "" <==>
            forall k :: 0 <= k < |pattern| ==> !RoomAfterDigit(pattern, k)
    ensures var d := CleanPattern(pattern);
      d != "" ==>
        exists k ::
          RoomAfterDigit(pattern, k) &&
          (forall k' :: 0 <= k' < k ==> !RoomAfterDigit(pattern, k')) &&
          |d| <= k && pattern[k - |d|..k] == d &&
          (k == |d| || !IsDigit(pattern[k - |d| - 1]))
  {
    var m := SearchFrom(pattern, 0);
    if m.None? {
      forall k | 0 <= k < |pattern| ensures !RoomAfterDigit(pattern, k) {
        if RoomAfterDigit(pattern, k) { MatchBeforeRoom(pattern, k); }
      }
    } else {
      var i := m.value;
      var j := DigitRunEnd(pattern, i);
      var d := pattern[i..j];
      assert CleanPattern(pattern) == d && d != "";
      assert RoomAfterDigit(pattern, j);
      forall k' | 0 <= k' < j ensures !RoomAfterDigit(pattern, k') {
        if k' > i {
          assert IsDigit(pattern[k']);
        } else if k' < i && RoomAfterDigit(pattern, k') {
          MatchBeforeRoom(pattern, k');
        }
      }
      if i > 0 && IsDigit(pattern[i - 1]) {
        MatchExtendsLeft(pattern, i);
        assert false;
      }
    }
  }
}

=== FILE: crawler.dfy ===
/** The browser crawler of listings/crawler.py (`get_rent_data`): the search
    URL it opens, the fields it reads from one listing block, and the loop
    that walks the result pages. The browser is replaced by its
    observations: a block is the texts of the elements the crawler looks
    up, and a page is its blocks, whether a link to the next page number
    exists, and whether waiting for the listing elements fails. */
module Crawler {
  import opened Text

  const BaseUrl: string := "https://rent.housefun.com.tw/"

  /** The district value that means "the whole county". */
  const WholeCounty: string := "全區"

  /** A page with fewer blocks than this is taken to be the last one. */
  const FullPage: nat := 10

  // ---------------------------------------------------------------------
  // Search URL

  /** `'/'.join(s for s in part.split('/') if s)`: the '/'-separated
      segments of `part` without the empty ones. */
  function PathSegments(part: string): string
  {
    Join(NonEmpty(Split(part, '/')), '/')
  }

  /** The `_<district>` suffix, present only for a real district. */
  function DistrictSuffix(district: string): string
  {
    if district != "" && district != WholeCounty then "_" + PathSegments(district) else ""
  }

  /** The names of the two query parameters. */
  const PurposeParam: string := "purpid="
  const RentParam: string := "rpid="

  /** The query string, as a reference independent of how the crawler
      assembles it from a parameter list. */
  function QueryString(houseType: string, rentRange: string): string
  {
    if houseType == "" && rentRange == "" then ""
    else if rentRange == "" then "?" + PurposeParam + houseType
    else if houseType == "" then "?" + RentParam + rentRange
    else "?" + PurposeParam + houseType + "&" + RentParam + rentRange
  }

  /** The URL the crawler opens. An absent argument and an empty one are
      the same here, as they are to Python's truth test. */
  function SearchUrl(county: string, district: string, houseType: string, rentRange: string): string
  {
    if county == "" then BaseUrl
    else BaseUrl + "region/" + PathSegments(county) + DistrictSuffix(district) + "/" +
         QueryString(houseType, rentRange)
  }

  /** Builds the search URL step by step, as `get_rent_data` does. */
  method BuildSearchUrl(county: string, district: string, houseType: string, rentRange: string)
    returns (url: string)
    ensures url == SearchUrl(county, district, houseType, rentRange)
    ensures county == "" ==> url == BaseUrl
  {
    if county != "" {
      var encodedCounty := Join(NonEmpty(Split(county, '/')), '/');
      url := BaseUrl + "region/" + encodedCounty;
      if district != "" && district != WholeCounty {
        var encodedDistrict := Join(NonEmpty(Split(district, '/')), '/');
        url := url + ("_" + encodedDistrict);
      }
      assert url == BaseUrl + "region/" + PathSegments(county) + DistrictSuffix(district);
      url := url + "/";
      var query := BuildQuery(houseType, rentRange);
      url := url + query;
    } else {
      url := BaseUrl;
    }
  }

  /** The `params` list of `get_rent_data` joined behind a '?'. */
  method BuildQuery(houseType: string, rentRange: string) returns (query: string)
    ensures query == QueryString(houseType, rentRange)
  {
    var params: seq<string> := [];
    if houseType != "" {
      params := params + [PurposeParam + houseType];
    }
    if rentRange != "" {
      params := params + [RentParam + rentRange];
    }
    query := "";
    if params != [] {
      query := "?" + Join(params, '&');
    }
    if houseType != "" && rentRange != "" {
      assert params == [PurposeParam + houseType, RentParam + rentRange];
      QueryOfBoth(houseType, rentRange);
    } else if houseType != "" {
      assert params == [PurposeParam + houseType];
    } else if rentRange != "" {
      assert params == [RentParam + rentRange];
    }
  }

  /** With both filters set, the two parameters joined by '&' behind a '?'
      are the query string. */
  lemma QueryOfBoth(houseType: string, rentRange: string)
    requires houseType != "" && rentRange != ""
    ensures "?" + Join([PurposeParam + houseType, RentParam + rentRange], '&') ==
            QueryString(houseType, rentRange)
  {
    var first, second := PurposeParam + houseType, RentParam + rentRange;
    JoinTwo(first, second, '&');
  }

  /** The county (or district) part keeps every non-empty segment, has no
      doubled '/', and neither starts nor ends with '/'. */
  lemma PathSegmentsClean(part: string)
    ensures var e := PathSegments(part);
      NoDoubled(e, '/') &&
      (e != "" ==> e[0] != '/' && e[|e| - 1] != '/') &&
      (e != "" ==> Split(e, '/') == NonEmpty(Split(part, '/')))
  {
    var pieces := Split(part, '/');
    var kept := NonEmpty(pieces);
    forall i | 0 <= i < |kept| ensures kept[i] != "" && '/' !in kept[i] {
      assert kept[i] in pieces;
    }
    JoinClean(kept, '/');
    if kept != [] {
      SplitJoin(kept, '/');
    }
  }

  /** What a URL for a county is made of: the cleaned county, a district
      suffix only for a real district, exactly one '/' closing the path
      whenever the county has a non-empty segment, and a query string that
      is present iff a filter is set and puts `purpid` before `rpid`. */
  lemma SearchUrlParts(county: string, district: string, houseType: string, rentRange: string)
    requires county != ""
    ensures var c := PathSegments(county);
      var d := DistrictSuffix(district);
      var q := QueryString(houseType, rentRange);
      SearchUrl(county, district, houseType, rentRange) == BaseUrl + "region/" + c + d + "/" + q &&
      (d == "" <==> district == "" || district == WholeCounty) &&
      (d != "" ==> d[0] == '_' && d[|d| - 1] != '/') &&
      (c != "" ==> (c + d)[|c + d| - 1] != '/') &&
      (q == "" <==> houseType == "" && rentRange == "") &&
      (q != "" ==> q[0] == '?') &&
      (houseType != "" && rentRange != "" ==> q == "?" + PurposeParam + houseType + "&" + RentParam + rentRange)
  {
    PathSegmentsClean(county);
    PathSegmentsClean(district);
    QueryShape(houseType, rentRange);
  }

  /** The query string is empty iff no filter is set, and starts with '?'
      otherwise. */
  lemma QueryShape(houseType: string, rentRange: string)
    ensures var q := QueryString(houseType, rentRange);
      (q == "" <==> houseType == "" && rentRange == "") && (q != "" ==> q[0] == '?')
  {
    var q := QueryString(houseType, rentRange);
    if houseType != "" || rentRange != "" {
      var rest := if rentRange == "" then PurposeParam + houseType
        else if houseType == "" then RentParam + rentRange
        else PurposeParam + houseType + "&" + RentParam + rentRange;
      assert q == "?" + rest;
    }
  }

  // ---------------------------------------------------------------------
  // Serial number

  /** `href.rstrip('/').split('/')[-1]`: the text after the last '/' of
      the link once its trailing '/'s are gone. */
  function Serial(href: string): (s: string)
    ensures '/' !in s
    ensures var t := RStrip(href, '/');
      |s| <= |t| && t[|t| - |s|..] == s && (|s| == |t| || t[|t| - |s| - 1] == '/')
  {
    var t := RStrip(href, '/');
    var parts := Split(t, '/');
    LastPiece(t, '/');
    parts[|parts| - 1]
  }

  /** The serial is empty exactly when the link is nothing but '/'s. */
  lemma SerialEmptyIffOnlySlashes(href: string)
    ensures Serial(href) == "" <==> forall i :: 0 <= i < |href| ==> href[i] == '/'
  {
    var t := RStrip(href, '/');
    LastPiece(t, '/');
    if Serial(href) != "" {
      assert t != "" && href[|t| - 1] == t[|t| - 1];
    }
  }

  // ---------------------------------------------------------------------
  // One listing block

  /** What the crawler can see of one listing block: the `href` attribute
      of each `<a>` in document order (None when the anchor has none), the
      text of the elements with class `title`, `addr`, `level` and
      `pattern` (None when there is no such element), and the texts of the
      elements with class `infos`. */
  datatype Block = Block(
    anchors: seq<Option<string>>,
    title: Option<string>,
    addr: Option<string>,
    level: Option<string>,
    pattern: Option<string>,
    infos: seq<string>)

  /** One scraped listing; every field is the raw text. */
  datatype Listing = Listing(
    serial: string, title: string, addr: string, level: string, pattern: string,
    rent: string, parking: string, area: string, agent: string, updateTime: string,
    url: string)

  /** The fields read from the `infos` texts. */
  datatype InfoFields = InfoFields(
    rent: string, parking: string, area: string, agent: string, updateTime: string)

  /** Reads the `infos` texts by position, guessing the layout from their
      number (both crawlers do the same). */
  function ReadInfos(infos: seq<string>): (f: InfoFields)
    ensures |infos| == 4 || |infos| == 5 ==>
      f.rent == infos[0] && f.area == infos[|infos| - 3] &&
      f.agent == infos[|infos| - 2] && f.updateTime == infos[|infos| - 1]
    ensures f.parking == (if |infos| == 5 then infos[1] else "")
    ensures |infos| != 4 && |infos| != 5 ==> f == InfoFields("", "", "", "", "")
  {
    if |infos| == 4 then InfoFields(infos[0], "", infos[1], infos[2], infos[3])
    else if |infos| == 5 then InfoFields(infos[0], infos[1], infos[2], infos[3], infos[4])
    else InfoFields("", "", "", "", "")
  }

  /** Four texts are rent, area, agent and update time with no parking;
      five put parking second; any other number fills nothing. */
  lemma InfoLayout(infos: seq<string>)
    ensures var f := ReadInfos(infos);
      (|infos| == 4 ==> f.rent == infos[0] && f.parking == "" && f.area == infos[1] &&
                        f.agent == infos[2] && f.updateTime == infos[3]) &&
      (|infos| == 5 ==> f.rent == infos[0] && f.parking == infos[1] && f.area == infos[2] &&
                        f.agent == infos[3] && f.updateTime == infos[4]) &&
      (|infos| != 4 && |infos| != 5 ==> f == InfoFields("", "", "", "", ""))
  {
  }

  /** A block the browser crawler cannot read completely: no anchor, a
      first anchor without `href`, or a missing title, address, level or
      pattern element. Each of these raises inside the per-item `try`. */
  predicate Incomplete(b: Block)
  {
    b.anchors == [] || b.anchors[0].None? ||
    b.title.None? || b.addr.None? || b.level.None? || b.pattern.None?
  }

  /** The per-item body of the browser crawler: None when the block is
      skipped. The `level` output is read from the element with class
      `pattern` and the `pattern` output from the one with class `level`. */
  function ExtractBrowser(b: Block): (r: Option<Listing>)
    ensures r.None? <==> Incomplete(b)
    ensures r.Some? ==>
      r.value.url == b.anchors[0].value && '/' !in r.value.serial &&
      r.value.level == b.pattern.value && r.value.pattern == b.level.value
  {
    if Incomplete(b) then None
    else
      var href := b.anchors[0].value;
      var f := ReadInfos(b.infos);
      Some(Listing(Serial(href), b.title.value, b.addr.value, b.pattern.value, b.level.value,
                   f.rent, f.parking, f.area, f.agent, f.updateTime, href))
  }

  /** A block is skipped iff it is incomplete; otherwise the listing holds
      the link, its serial, the swapped level and pattern texts and the
      `infos` layout. */
  lemma BrowserExtraction(b: Block)
    ensures ExtractBrowser(b).None? <==> Incomplete(b)
    ensures ExtractBrowser(b).Some? ==>
      var r := ExtractBrowser(b).value; var f := ReadInfos(b.infos);
      r.url == b.anchors[0].value && r.serial == Serial(r.url) &&
      r.title == b.title.value && r.addr == b.addr.value &&
      r.level == b.pattern.value && r.pattern == b.level.value &&
      r.rent == f.rent && r.parking == f.parking && r.area == f.area &&
      r.agent == f.agent && r.updateTime == f.updateTime
  {
  }

  /** The listings of the readable blocks, in block order. */
  function BrowserItems(blocks: seq<Block>): (r: seq<Listing>)
    ensures |r| <= |blocks|
  {
    if blocks == [] then []
    else
      var last := ExtractBrowser(blocks[|blocks| - 1]);
      BrowserItems(blocks[..|blocks| - 1]) + (if last.Some? then [last.value] else [])
  }

  lemma {:induction false} BrowserItemsAppend(xs: seq<Block>, ys: seq<Block>)
    ensures BrowserItems(xs + ys) == BrowserItems(xs) + BrowserItems(ys)
    decreases |ys|
  {
    if ys == [] {
      assert xs + ys == xs;
    } else {
      var ys' := ys[..|ys| - 1];
      var b := ys[|ys| - 1];
      assert xs + ys == (xs + ys') + [b];
      assert ys == ys' + [b];
      BrowserItemsAppend(xs, ys');
      BrowserItemsSnoc(xs + ys', b);
      BrowserItemsSnoc(ys', b);
    }
  }

  /** One more block adds its listing, if any, at the end. */
  lemma BrowserItemsSnoc(bs: seq<Block>, b: Block)
    ensures BrowserItems(bs + [b]) ==
      BrowserItems(bs) + (if ExtractBrowser(b).Some? then [ExtractBrowser(b).value] else [])
  {
    assert (bs + [b])[..|bs + [b]| - 1] == bs;
  }

  /** A block that cannot be read drops that listing only: the blocks before
      and after it give what they give without it. */
  lemma SkipsOnlyBadBlock(xs: seq<Block>, b: Block, ys: seq<Block>)
    ensures BrowserItems(xs + [b] + ys) ==
      BrowserItems(xs) + (if Incomplete(b) then [] else [ExtractBrowser(b).value]) + BrowserItems(ys)
  {
    BrowserItemsAppend(xs + [b], ys);
    BrowserItemsAppend(xs, [b]);
    assert [b][..0] == [];
  }

  /** One unreadable block leaves fewer listings than blocks. */
  lemma DroppedBlockShortens(blocks: seq<Block>, i: int)
    requires 0 <= i < |blocks| && Incomplete(blocks[i])
    ensures |BrowserItems(blocks)| < |blocks|
  {
    SkipsOnlyBadBlock(blocks[..i], blocks[i], blocks[i + 1..]);
    assert blocks == blocks[..i] + [blocks[i]] + blocks[i + 1..];
    assert |BrowserItems(blocks[..i])| <= i;
  }

  /** The keys of the dictionaries the crawlers return: 'serial', 'title',
      'addr', 'level', 'pattern', 'rent', 'parking', 'area', 'agent',
      'landlord', 'update_time' and 'url'. */
  datatype Key =
    SerialKey | TitleKey | AddrKey | LevelKey | PatternKey | RentKey | ParkingKey |
    AreaKey | AgentKey | LandlordKey | UpdateTimeKey | UrlKey

  /** A scraped listing as the dictionary the crawlers hand on. */
  type Item = map<Key, string>

  /** The dictionary the browser crawler builds for a listing. */
  function AsItem(r: Listing): (item: Item)
    ensures item.Keys == {SerialKey, TitleKey, AddrKey, LevelKey, PatternKey, RentKey,
                          ParkingKey, AreaKey, AgentKey, UpdateTimeKey, UrlKey}
  {
    map[SerialKey := r.serial, TitleKey := r.title, AddrKey := r.addr, LevelKey := r.level,
        PatternKey := r.pattern, RentKey := r.rent, ParkingKey := r.parking, AreaKey := r.area,
        AgentKey := r.agent, UpdateTimeKey := r.updateTime, UrlKey := r.url]
  }

  // ---------------------------------------------------------------------
  // Paging

  /** What the browser shows for one page number. */
  datatype Page = Page(blocks: seq<Block>, hasNext: bool, waitFails: bool)

  /** The listings a page contributes: none when the wait fails. */
  function PageItems(p: Page): seq<Listing>
  {
    if p.waitFails then [] else BrowserItems(p.blocks)
  }

  /** The crawler moves from page `n` to page `n + 1`: the page loaded, was
      full, the cap allows another page and the link to it exists. */
  predicate Advances(p: Page, n: int, maxPages: int)
  {
    !p.waitFails && |p.blocks| >= FullPage && n < maxPages && p.hasNext
  }

  /** How many pages are read when the crawler is on page `n`. */
  function PagesRead(page: int -> Page, n: int, maxPages: int): (count: nat)
    ensures count <= (if n <= maxPages then maxPages - n + 1 else 0)
    ensures n <= maxPages ==> count >= 1
    decreases maxPages - n
  {
    if n > maxPages then 0
    else if Advances(page(n), n, maxPages) then 1 + PagesRead(page, n + 1, maxPages)
    else 1
  }

  /** The listings of pages 1 to `count`, in page order. */
  function ItemsOf(page: int -> Page, count: nat): seq<Listing>
  {
    if count == 0 then [] else ItemsOf(page, count - 1) + PageItems(page(count))
  }

  /** The paging loop of `get_rent_data`, started on page 1 of the search
      results. */
  method Collect(maxPages: int, page: int -> Page) returns (results: seq<Listing>, ghost pagesRead: nat)
    ensures pagesRead == PagesRead(page, 1, maxPages)
    ensures results == ItemsOf(page, PagesRead(page, 1, maxPages))
  {
    results := [];
    pagesRead := 0;
    var currentPage := 1;
    while currentPage <= maxPages
      invariant 1 <= currentPage && pagesRead == currentPage - 1
      invariant PagesRead(page, 1, maxPages) == pagesRead + PagesRead(page, currentPage, maxPages)
      invariant results == ItemsOf(page, pagesRead)
      decreases maxPages - currentPage
    {
      var p := page(currentPage);
      ghost var advances := Advances(p, currentPage, maxPages);
      assert !advances ==> PagesRead(page, 1, maxPages) == currentPage;
      assert advances ==>
        PagesRead(page, 1, maxPages) == currentPage + PagesRead(page, currentPage + 1, maxPages);
      assert ItemsOf(page, currentPage) == results + PageItems(p);
      pagesRead := currentPage;
      if p.waitFails {
        break;
      }
      if |p.blocks| == 0 {
        break;
      }
      results := AppendItems(results, p.blocks);
      if |p.blocks| >= FullPage {
        if currentPage < maxPages {
          if p.hasNext {
            currentPage := currentPage + 1;
          } else {
            break;
          }
        } else {
          break;
        }
      } else {
        break;
      }
    }
  }

  /** The loop over the blocks of one page: appends the listing of each
      readable block, skipping the others. */
  method AppendItems(results: seq<Listing>, blocks: seq<Block>) returns (r: seq<Listing>)
    ensures r == results + BrowserItems(blocks)
  {
    r := results;
    var i := 0;
    while i < |blocks|
      invariant 0 <= i <= |blocks|
      invariant r == results + BrowserItems(blocks[..i])
    {
      assert blocks[..i + 1][..i] == blocks[..i];
      var item := ExtractBrowser(blocks[i]);
      if item.Some? {
        r := r + [item.value];
      }
      i := i + 1;
    }
    assert blocks[..i] == blocks;
  }

  /** `get_rent_data` for a search. `browser` stands for a started
      browser session: None when it cannot open the URL, otherwise what it
      shows for each page number of that URL. */
  method GetRentData(county: string, district: string, houseType: string, rentRange: string,
                     maxPages: int, browser: string -> Option<int -> Page>)
    returns (results: seq<Listing>)
    ensures var session := browser(SearchUrl(county, district, houseType, rentRange));
      session.None? ==> results == []
    ensures var session := browser(SearchUrl(county, district, houseType, rentRange));
      session.Some? ==>
        results == ItemsOf(session.value, PagesRead(session.value, 1, maxPages)) &&
        PagesRead(session.value, 1, maxPages) <= (if maxPages < 1 then 0 else maxPages)
  {
    var url := BuildSearchUrl(county, district, houseType, rentRange);
    var session := browser(url);
    if session.None? {
      return [];
    }
    ghost var n;
    results, n := Collect(maxPages, session.value);
  }

  /** Every page before the last one read advanced (it was full, within the
      cap and had a next link); the last one read did not. */
  lemma {:induction false} PagesReadAdvance(page: int -> Page, n: int, maxPages: int)
    ensures forall k :: n <= k < n + PagesRead(page, n, maxPages) - 1 ==> Advances(page(k), k, maxPages)
    ensures PagesRead(page, n, maxPages) > 0 ==>
      var last := n + PagesRead(page, n, maxPages) - 1;
      !Advances(page(last), last, maxPages)
    decreases maxPages - n
  {
    if n <= maxPages && Advances(page(n), n, maxPages) {
      PagesReadAdvance(page, n + 1, maxPages);
    }
  }

  /** When pages `n .. j-1` advance and page `j` does not, exactly the
      pages `n .. j` are read: the crawler never asks for page `j + 1`. */
  lemma {:induction false} StopsAt(page: int -> Page, n: int, j: int, maxPages: int)
    requires n <= j <= maxPages
    requires forall k :: n <= k < j ==> Advances(page(k), k, maxPages)
    requires !Advances(page(j), j, maxPages)
    ensures PagesRead(page, n, maxPages) == j - n + 1
    decreases j - n
  {
    if n < j {
      StopsAt(page, n + 1, j, maxPages);
    }
  }

  /** A page with fewer than ten blocks is the last one read, whatever the
      cap. */
  lemma ShortPageIsLast(page: int -> Page, j: int, maxPages: int)
    requires 1 <= j <= maxPages
    requires forall k :: 1 <= k < j ==> Advances(page(k), k, maxPages)
    requires |page(j).blocks| < FullPage
    ensures PagesRead(page, 1, maxPages) == j
  {
    StopsAt(page, 1, j, maxPages);
  }

  /** When the wait fails on page `j`, the run ends there and returns what
      the earlier pages gave. */
  lemma PageFailureKeepsEarlierPages(page: int -> Page, j: int, maxPages: int)
    requires 1 <= j <= maxPages
    requires forall k :: 1 <= k < j ==> Advances(page(k), k, maxPages)
    requires page(j).waitFails
    ensures PagesRead(page, 1, maxPages) == j
    ensures ItemsOf(page, PagesRead(page, 1, maxPages)) == ItemsOf(page, j - 1)
  {
    StopsAt(page, 1, j, maxPages);
  }
}

=== FILE: crawler_requests.dfy ===
/** The HTTP crawler of listings/crawler_requests.py: one GET of the site's
    front page and one listing per `li` of the result list. Unlike the
    browser crawler it never drops a block: what it cannot find becomes the
    empty string. The response is replaced by its observation: a failed
    request, or the blocks of the result list. */
module CrawlerRequests {
  import opened Text
  import opened Crawler

  /** What the GET of the front page gives: an error (connection, timeout,
      HTTP status) or the blocks of the result list. */
  datatype Response = RequestFailed | Blocks(blocks: seq<Block>)

  /** The `href` of the first anchor that has one, or '' when none has. */
  function FirstHref(anchors: seq<Option<string>>): (href: string)
    ensures (forall i :: 0 <= i < |anchors| ==> anchors[i].None?) ==> href == ""
    ensures (exists i :: 0 <= i < |anchors| && anchors[i].Some?) ==>
      exists i :: 0 <= i < |anchors| && anchors[i] == Some(href) &&
        forall j :: 0 <= j < i ==> anchors[j].None?
  {
    if anchors == [] then ""
    else if anchors[0].Some? then anchors[0].value
    else
      var href := FirstHref(anchors[1..]);
      assert forall i :: 1 <= i < |anchors| ==> anchors[i] == anchors[1..][i - 1];
      href
  }

  /** The text of an element, or '' when the block has no such element. */
  function TextOr(e: Option<string>): string
  {
    if e.Some? then e.value else ""
  }

  /** The per-item body of the HTTP crawler. The `agent` field holds what
      this crawler calls `landlord`. */
  function ExtractHttp(b: Block): (r: Listing)
    ensures r.url == FirstHref(b.anchors)
    ensures '/' !in r.serial
    ensures r.url != "" ==> r.serial == Serial(r.url)
    ensures r.url == "" ==> r.serial == ""
    ensures b.title.Some? ==> r.title == b.title.value
    ensures b.addr.Some? ==> r.addr == b.addr.value
    ensures b.level.Some? ==> r.level == b.level.value
    ensures b.pattern.Some? ==> r.pattern == b.pattern.value
    ensures var f := ReadInfos(b.infos);
      r.rent == f.rent && r.parking == f.parking && r.area == f.area &&
      r.agent == f.agent && r.updateTime == f.updateTime
  {
    var href := FirstHref(b.anchors);
    var f := ReadInfos(b.infos);
    Listing(if href != "" then Serial(href) else "",
            TextOr(b.title), TextOr(b.addr), TextOr(b.level), TextOr(b.pattern),
            f.rent, f.parking, f.area, f.agent, f.updateTime, href)
  }

  /** The dictionary the HTTP crawler builds: the browser crawler's keys
      with `landlord` in place of `agent`. */
  function AsHttpItem(r: Listing): (item: Item)
    ensures item.Keys == {SerialKey, TitleKey, AddrKey, LevelKey, PatternKey, RentKey,
                          ParkingKey, AreaKey, LandlordKey, UpdateTimeKey, UrlKey}
    ensures item[LandlordKey] == r.agent && item[UrlKey] == r.url && item[SerialKey] == r.serial
  {
    map[SerialKey := r.serial, TitleKey := r.title, AddrKey := r.addr, LevelKey := r.level,
        PatternKey := r.pattern, RentKey := r.rent, ParkingKey := r.parking, AreaKey := r.area,
        LandlordKey := r.agent, UpdateTimeKey := r.updateTime, UrlKey := r.url]
  }

  /** The records of `blocks`, one per block, in block order. */
  function HttpRecords(blocks: seq<Block>): (r: seq<Item>)
    ensures |r| == |blocks|
    decreases |blocks|
  {
    if blocks == [] then []
    else HttpRecords(blocks[..|blocks| - 1]) + [AsHttpItem(ExtractHttp(blocks[|blocks| - 1]))]
  }

  /** The record at position `i` is built from block `i` alone. */
  lemma {:induction false} HttpRecordsAt(blocks: seq<Block>, i: int)
    requires 0 <= i < |blocks|
    ensures HttpRecords(blocks)[i] == AsHttpItem(ExtractHttp(blocks[i]))
    decreases |blocks|
  {
    if i < |blocks| - 1 {
      HttpRecordsAt(blocks[..|blocks| - 1], i);
    }
  }

  /** `get_rent_data` of the HTTP crawler. */
  method Scrape(response: Response) returns (results: seq<Item>)
    ensures response.RequestFailed? ==> results == []
    ensures response.Blocks? ==>
      |results| == |response.blocks| &&
      forall i :: 0 <= i < |results| ==> results[i] == AsHttpItem(ExtractHttp(response.blocks[i]))
  {
    results := [];
    if response.RequestFailed? {
      return;
    }
    var blocks := response.blocks;
    for i := 0 to |blocks|
      invariant results == HttpRecords(blocks[..i])
    {
      assert blocks[..i + 1][..i] == blocks[..i];
      results := results + [AsHttpItem(ExtractHttp(blocks[i]))];
    }
    assert blocks[..|blocks|] == blocks;
    forall i | 0 <= i < |results|
      ensures results[i] == AsHttpItem(ExtractHttp(blocks[i]))
    {
      HttpRecordsAt(blocks, i);
    }
  }

  /** A missing element or `infos` layout leaves its fields empty, and a
      block without any link gets an empty URL and serial. */
  lemma HttpDegrades(b: Block)
    ensures var r := ExtractHttp(b);
      (b.title.None? ==> r.title == "") && (b.addr.None? ==> r.addr == "") &&
      (b.level.None? ==> r.level == "") && (b.pattern.None? ==> r.pattern == "") &&
      (|b.infos| != 4 && |b.infos| != 5 ==>
         r.rent == "" && r.parking == "" && r.area == "" && r.agent == "" && r.updateTime == "") &&
      ((forall i :: 0 <= i < |b.anchors| ==> b.anchors[i].None?) ==> r.url == "" && r.serial == "")
  {
  }

  /** On a block both crawlers can read whose first anchor has a link, the
      two agree on every field except `level` and `pattern`, which the
      browser crawler swaps. */
  lemma SwappedLevelAndPattern(b: Block)
    requires !Incomplete(b)
    ensures var h := ExtractHttp(b); var w := ExtractBrowser(b).value;
      h.level == w.pattern && h.pattern == w.level &&
      h.serial == w.serial && h.url == w.url && h.title == w.title && h.addr == w.addr &&
      h.rent == w.rent && h.parking == w.parking && h.area == w.area &&
      h.agent == w.agent && h.updateTime == w.updateTime
  {
    var href := b.anchors[0].value;
    assert FirstHref(b.anchors) == href;
    var serial := Serial(href);
    assert href == "" ==> serial == "" by {
      if href == "" { assert RStrip(href, '/') == ""; }
    }
    var f := ReadInfos(b.infos);
    assert ExtractHttp(b) == Listing(serial, b.title.value, b.addr.value, b.level.value,
      b.pattern.value, f.rent, f.parking, f.area, f.agent, f.updateTime, href);
  }

  /** Where the browser crawler drops a block, the HTTP crawler still
      returns a listing for it. */
  lemma HttpKeepsDroppedBlocks(blocks: seq<Block>, i: int)
    requires 0 <= i < |blocks| && Incomplete(blocks[i])
    ensures ExtractBrowser(blocks[i]).None?
    ensures |BrowserItems(blocks)| < |blocks|
    ensures |HttpRecords(blocks)| == |blocks|
    ensures HttpRecords(blocks)[i] == AsHttpItem(ExtractHttp(blocks[i]))
  {
    HttpRecordsAt(blocks, i);
    DroppedBlockShortens(blocks, i);
  }
}

=== FILE: sorting.dfy ===
/** Python's sorts and pandas' de-duplication on sequences:
    `list.sort(key=...)` and `sorted(..., key=...)` (a stable sort by an
    integer key), `sorted` on strings, `list.index`, and `Series.unique()`
    (distinct values in order of first appearance). */
module Sorting {
  import opened Text

  predicate Distinct<T(==)>(xs: seq<T>)
  {
    forall i, j :: 0 <= i < j < |xs| ==> xs[i] != xs[j]
  }

  /** `xs.index(x)`: the position of the first occurrence of `x`. */
  function IndexOf<T(==)>(xs: seq<T>, x: T): (k: nat)
    requires x in xs
    ensures k < |xs| && xs[k] == x
    ensures forall j :: 0 <= j < k ==> xs[j] != x
  {
    if xs[0] == x then 0 else 1 + IndexOf(xs[1..], x)
  }

  lemma {:induction false} IndexOfAppend<T>(xs: seq<T>, ys: seq<T>, x: T)
    requires x in xs + ys
    ensures x in xs ==> IndexOf(xs + ys, x) == IndexOf(xs, x)
    ensures x !in xs ==> IndexOf(xs + ys, x) == |xs| + IndexOf(ys, x)
  {
    if xs == [] {
      assert xs + ys == ys;
    } else {
      if xs[0] != x {
        assert (xs + ys)[1..] == xs[1..] + ys;
        IndexOfAppend(xs[1..], ys, x);
      }
    }
  }

  // ---------------------------------------------------------------------
  // stable sort by an integer key

  predicate SortedBy<T>(xs: seq<T>, key: T -> int)
  {
    forall i, j :: 0 <= i < j < |xs| ==> key(xs[i]) <= key(xs[j])
  }

  /** Puts `x` in front of the first element whose key is not smaller, so
      that `x` stays ahead of the elements with an equal key. */
  function InsertBy<T(==)>(x: T, ys: seq<T>, key: T -> int): (r: seq<T>)
    ensures |r| == |ys| + 1
    ensures multiset(r) == multiset(ys) + multiset{x}
  {
    if ys == [] || key(x) <= key(ys[0]) then [x] + ys
    else
      assert ys == [ys[0]] + ys[1..];
      [ys[0]] + InsertBy(x, ys[1..], key)
  }

  lemma {:induction false} InsertBySorted<T>(x: T, ys: seq<T>, key: T -> int)
    requires SortedBy(ys, key)
    ensures SortedBy(InsertBy(x, ys, key), key)
  {
    var r := InsertBy(x, ys, key);
    if ys == [] || key(x) <= key(ys[0]) {
      assert r == [x] + ys;
      forall i, j | 0 <= i < j < |r| ensures key(r[i]) <= key(r[j]) {
        if i == 0 && j > 1 {
          assert key(ys[0]) <= key(ys[j - 1]);
        }
      }
    } else {
      InsertBySorted(x, ys[1..], key);
      var inner := InsertBy(x, ys[1..], key);
      assert r == [ys[0]] + inner;
      forall j | 1 <= j < |r| ensures key(r[0]) <= key(r[j]) {
        var z := r[j];
        assert z == inner[j - 1] && z in multiset(inner);
        if z != x {
          assert z in multiset(ys[1..]);
          var k :| 0 <= k < |ys[1..]| && ys[1..][k] == z;
          assert ys[k + 1] == z;
        }
      }
    }
  }

  /** `sorted(xs, key=key)`: insertion sort, stable like Python's. */
  function SortBy<T(==)>(xs: seq<T>, key: T -> int): (r: seq<T>)
    ensures multiset(r) == multiset(xs)
    ensures SortedBy(r, key)
  {
    if xs == [] then []
    else
      assert xs == [xs[0]] + xs[1..];
      var rest := SortBy(xs[1..], key);
      InsertBySorted(xs[0], rest, key);
      InsertBy(xs[0], rest, key)
  }

  /** The elements of `xs` whose key is `k`, in order. */
  function WithKey<T>(xs: seq<T>, key: T -> int, k: int): seq<T>
  {
    if xs == [] then []
    else (if key(xs[0]) == k then [xs[0]] else []) + WithKey(xs[1..], key, k)
  }

  lemma {:induction false} InsertByStable<T>(x: T, ys: seq<T>, key: T -> int, k: int)
    ensures WithKey(InsertBy(x, ys, key), key, k) ==
            (if key(x) == k then [x] else []) + WithKey(ys, key, k)
  {
    if ys != [] && key(x) > key(ys[0]) {
      var inner := InsertBy(x, ys[1..], key);
      InsertByStable(x, ys[1..], key, k);
      var head := if key(ys[0]) == k then [ys[0]] else [];
      calc {
        WithKey(InsertBy(x, ys, key), key, k);
        { assert InsertBy(x, ys, key) == [ys[0]] + inner; }
        head + WithKey(inner, key, k);
        head + ((if key(x) == k then [x] else []) + WithKey(ys[1..], key, k));
      }
    } else {
      assert InsertBy(x, ys, key) == [x] + ys;
      assert ([x] + ys)[1..] == ys;
    }
  }

  /** The sort is stable: elements with equal keys keep their relative
      order. */
  lemma {:induction false} SortByStable<T>(xs: seq<T>, key: T -> int, k: int)
    ensures WithKey(SortBy(xs, key), key, k) == WithKey(xs, key, k)
  {
    if xs != [] {
      SortByStable(xs[1..], key, k);
      InsertByStable(xs[0], SortBy(xs[1..], key), key, k);
    }
  }

  /** When every key is the same, sorting changes nothing. */
  lemma {:induction false} SortByConstantKey<T>(xs: seq<T>, key: T -> int, k: int)
    requires forall i :: 0 <= i < |xs| ==> key(xs[i]) == k
    ensures SortBy(xs, key) == xs
  {
    if xs != [] {
      SortByConstantKey(xs[1..], key, k);
      assert xs == [xs[0]] + xs[1..];
    }
  }

  // ---------------------------------------------------------------------
  // sorted() on strings

  predicate LexLeq(a: string, b: string) { a == b || LexLess(a, b) }

  predicate LexSorted(xs: seq<string>)
  {
    forall i, j :: 0 <= i < j < |xs| ==> LexLeq(xs[i], xs[j])
  }

  lemma LexLeqTransitive(a: string, b: string, c: string)
    requires LexLeq(a, b) && LexLeq(b, c)
    ensures LexLeq(a, c)
  {
    if a != b && b != c { LexTransitive(a, b, c); }
  }

  function InsertLex(x: string, ys: seq<string>): (r: seq<string>)
    ensures |r| == |ys| + 1
    ensures multiset(r) == multiset(ys) + multiset{x}
    ensures forall z :: z in r <==> z == x || z in ys
    ensures r[0] == x || (ys != [] && r[0] == ys[0])
  {
    if ys == [] || !LexLess(ys[0], x) then [x] + ys
    else
      assert ys == [ys[0]] + ys[1..];
      [ys[0]] + InsertLex(x, ys[1..])
  }

  lemma {:induction false} InsertLexSorted(x: string, ys: seq<string>)
    requires LexSorted(ys)
    ensures LexSorted(InsertLex(x, ys))
  {
    var r := InsertLex(x, ys);
    if ys == [] || !LexLess(ys[0], x) {
      if ys != [] {
        LexTotal(x, ys[0]);
        forall i, j | 0 <= i < j < |r| ensures LexLeq(r[i], r[j]) {
          if i == 0 && j > 1 { LexLeqTransitive(x, ys[0], ys[j - 1]); }
        }
      }
    } else {
      InsertLexSorted(x, ys[1..]);
      var inner := InsertLex(x, ys[1..]);
      assert r == [ys[0]] + inner;
      forall j | 1 <= j < |r| ensures LexLeq(r[0], r[j]) {
        assert r[j] in inner;
      }
    }
  }

  lemma {:induction false} InsertLexDistinct(x: string, ys: seq<string>)
    requires Distinct(ys) && x !in ys
    ensures Distinct(InsertLex(x, ys))
  {
    if ys != [] && LexLess(ys[0], x) {
      InsertLexDistinct(x, ys[1..]);
      assert ys[0] !in ys[1..];
    }
  }

  /** `sorted(xs)` on strings. */
  function SortStrings(xs: seq<string>): (r: seq<string>)
    ensures multiset(r) == multiset(xs)
    ensures forall z :: z in r <==> z in xs
    ensures LexSorted(r)
    ensures Distinct(xs) ==> Distinct(r)
  {
    if xs == [] then []
    else
      assert xs == [xs[0]] + xs[1..];
      var rest := SortStrings(xs[1..]);
      InsertLexSorted(xs[0], rest);
      assert Distinct(xs) ==> Distinct(InsertLex(xs[0], rest)) by {
        if Distinct(xs) { InsertLexDistinct(xs[0], rest); }
      }
      InsertLex(xs[0], rest)
  }

  /** A sorted sequence without repeats is strictly increasing. */
  lemma SortedDistinctIncreasing(xs: seq<string>, i: int, j: int)
    requires LexSorted(xs) && Distinct(xs) && 0 <= i < j < |xs|
    ensures LexLess(xs[i], xs[j])
  {
  }

  // ---------------------------------------------------------------------
  // unique()

  /** `Series.unique()`: each distinct value once, at its first
      appearance. */
  function Unique<T(==)>(xs: seq<T>): (r: seq<T>)
    ensures Distinct(r)
    ensures forall i :: 0 <= i < |r| ==> r[i] in xs
    ensures forall i :: 0 <= i < |xs| ==> xs[i] in r
  {
    if xs == [] then []
    else
      var u := Unique(xs[..|xs| - 1]);
      var x := xs[|xs| - 1];
      assert xs == xs[..|xs| - 1] + [x];
      if x in u then u else u + [x]
  }

  /** `unique()` lists values in the order in which they first appear. */
  lemma {:induction false} UniqueFirstAppearance<T>(xs: seq<T>, i: int, j: int)
    requires 0 <= i < j < |Unique(xs)|
    ensures Unique(xs)[i] in xs && Unique(xs)[j] in xs
    ensures IndexOf(xs, Unique(xs)[i]) < IndexOf(xs, Unique(xs)[j])
  {
    var u := Unique(xs);
    var init := xs[..|xs| - 1];
    var x := xs[|xs| - 1];
    var u' := Unique(init);
    assert xs == init + [x];
    assert u[i] in xs && u[j] in xs;
    if x in u' {
      UniqueFirstAppearance(init, i, j);
      IndexOfAppend(init, [x], u[i]);
      IndexOfAppend(init, [x], u[j]);
    } else {
      assert u == u' + [x];
      if j < |u'| {
        UniqueFirstAppearance(init, i, j);
        IndexOfAppend(init, [x], u[i]);
        IndexOfAppend(init, [x], u[j]);
      } else {
        assert u[j] == x && x !in init;
        assert u[i] == u'[i] && u[i] in init;
        IndexOfAppend(init, [x], u[i]);
        IndexOfAppend(init, [x], x);
      }
    }
  }
}

=== FILE: store.dfy ===
/** The listing table and the two loops of listings/views.py that store
    crawled listings in it: `rent_list` (one search) and
    `get_all_rent_list` (every county of a fixed list). The table is a map
    from serial to row, so serials are unique by construction; urls are
    kept unique by the table's invariant, as the `unique=True` columns of
    listings/models.py require. */
module Store {
  import opened Crawler
  import CrawlerRequests

  /** The columns of a `Listing` row besides its serial. */
  datatype Row = Row(
    title: string, addr: string, level: string, pattern: string, rent: string,
    parking: string, area: string, agent: string, updateTime: string, url: string)

  /** serial -> row. */
  type Table = map<string, Row>

  /** The values `Listing.parking` declares as its choices. */
  const ParkingChoices: set<string> := {"", "(含車位)"}

  /** No two rows share a url. */
  predicate UrlsUnique(rows: Table)
  {
    forall s, t :: s in rows && t in rows && s != t ==> rows[s].url != rows[t].url
  }

  // ---------------------------------------------------------------------
  // update_or_create

  datatype UpsertResult = Created | Updated | UrlConflict

  /** Another row than the one for `serial` already has `url`. */
  predicate UrlTakenByOther(rows: Table, serial: string, url: string)
  {
    exists s :: s in rows && s != serial && rows[s].url == url
  }

  /** What `update_or_create(serial=serial, defaults=row)` reports:
      `IntegrityError` when the url belongs to another row, otherwise
      whether the serial was new. */
  function UpsertResultOf(rows: Table, serial: string, row: Row): (r: UpsertResult)
    ensures r == Created ==> serial !in rows
    ensures r == Updated ==> serial in rows
    ensures r != UrlConflict ==> forall s :: s in rows && s != serial ==> rows[s].url != row.url
    ensures UrlsUnique(rows) && serial in rows && rows[serial].url == row.url ==> r == Updated
  {
    if UrlTakenByOther(rows, serial, row.url) then UrlConflict
    else if serial in rows then Updated
    else Created
  }

  /** The table after the call; a failed call leaves it as it was. */
  function Upsert(rows: Table, serial: string, row: Row): (rows': Table)
    ensures UpsertResultOf(rows, serial, row) == UrlConflict ==> rows' == rows
    ensures UpsertResultOf(rows, serial, row) != UrlConflict ==>
      serial in rows' && rows'[serial] == row && rows'.Keys == rows.Keys + {serial}
    ensures forall s :: s in rows && s != serial ==> s in rows' && rows'[s] == rows[s]
  {
    if UpsertResultOf(rows, serial, row) == UrlConflict then rows else rows[serial := row]
  }

  /** The call creates a row iff the serial was absent and the url free,
      updates iff the serial was present and the url free, and keeps urls
      unique. */
  lemma UpsertSpec(rows: Table, serial: string, row: Row)
    ensures UpsertResultOf(rows, serial, row) == Created <==>
            serial !in rows && !UrlTakenByOther(rows, serial, row.url)
    ensures UpsertResultOf(rows, serial, row) == Updated <==>
            serial in rows && !UrlTakenByOther(rows, serial, row.url)
    ensures UrlsUnique(rows) ==> UrlsUnique(Upsert(rows, serial, row))
    ensures |Upsert(rows, serial, row)| ==
            |rows| + (if UpsertResultOf(rows, serial, row) == Created then 1 else 0)
  {
  }

  /** The table. */
  class ListingTable {
    var rows: Table

    predicate Valid()
      reads this
    {
      UrlsUnique(rows)
    }

    constructor()
      ensures Valid() && rows == map[]
    {
      rows := map[];
    }

    /** `Listing.objects.update_or_create(serial=serial, defaults=row)`. */
    method UpdateOrCreate(serial: string, row: Row) returns (result: UpsertResult)
      requires Valid()
      modifies this
      ensures Valid()
      ensures result == UpsertResultOf(old(rows), serial, row)
      ensures rows == Upsert(old(rows), serial, row)
    {
      UpsertSpec(rows, serial, row);
      result := UpsertResultOf(rows, serial, row);
      if result != UrlConflict {
        rows := rows[serial := row];
      }
    }

    /** The loop of `rent_list` over what one search crawled: the serials
        of the stored listings (`current_listings`, whose length is the
        reported total) and the number of new ones. */
    method SaveCrawl(items: seq<Item>) returns (saved: seq<string>, newCount: nat)
      requires Valid()
      modifies this
      ensures Valid()
      ensures var t := Run(old(rows), items);
        rows == t.rows && saved == t.saved && newCount == t.newCount
    {
      saved := [];
      newCount := 0;
      ghost var errors := 0;
      ghost var start := rows;
      for i := 0 to |items|
        invariant Valid()
        invariant Run(start, items[..i]) == Tally(rows, saved, newCount, errors)
      {
        assert items[..i + 1][..i] == items[..i];
        var item := items[i];
        if !(RequiredKeys <= item.Keys) {
          errors := errors + 1;
          continue;
        }
        var result := UpdateOrCreate(item[SerialKey], RowOf(item));
        if result == UrlConflict {
          errors := errors + 1;
          continue;
        }
        if result == Created {
          newCount := newCount + 1;
        }
        saved := saved + [item[SerialKey]];
      }
      assert items[..|items|] == items;
    }

    /** The inner loop of `get_all_rent_list` over the items of one
        county, continuing the counters. */
    method SaveCountyItems(items: seq<Item>, ghost saved0: seq<string>, newCount0: nat, errors0: nat)
      returns (ghost saved: seq<string>, newCount: nat, errors: nat)
      requires Valid()
      modifies this
      ensures Valid()
      ensures RunFrom(Tally(old(rows), saved0, newCount0, errors0), items) ==
              Tally(rows, saved, newCount, errors)
    {
      saved, newCount, errors := saved0, newCount0, errors0;
      ghost var before := Tally(rows, saved, newCount, errors);
      for i := 0 to |items|
        invariant Valid()
        invariant RunFrom(before, items[..i]) == Tally(rows, saved, newCount, errors)
      {
        assert items[..i + 1][..i] == items[..i];
        var item := items[i];
        if !(RequiredKeys <= item.Keys) {
          errors := errors + 1;
          continue;
        }
        var result := UpdateOrCreate(item[SerialKey], RowOf(item));
        if result == UrlConflict {
          errors := errors + 1;
          continue;
        }
        if result == Created {
          newCount := newCount + 1;
        }
        saved := saved + [item[SerialKey]];
      }
      assert items[..|items|] == items;
    }

    /** `get_all_rent_list`: crawls every county of `AllRentCounties` in
        turn and stores what it gets; returns the new-listing and error
        counts it reports. */
    method SaveAllCounties(crawl: string -> Crawl) returns (newCount: nat, errors: nat)
      requires Valid()
      modifies this
      ensures Valid()
      ensures var t := CountiesRun(old(rows), AllRentCounties, crawl);
        rows == t.rows && newCount == t.newCount && errors == t.errors
    {
      newCount := 0;
      errors := 0;
      ghost var saved: seq<string> := [];
      ghost var start := rows;
      var counties := AllRentCounties;
      for c := 0 to |counties|
        invariant Valid()
        invariant CountiesRun(start, counties[..c], crawl) == Tally(rows, saved, newCount, errors)
      {
        assert counties[..c + 1][..c] == counties[..c];
        var outcome := crawl(counties[c]);
        if outcome.CrawlFailed? {
          errors := errors + 1;
          continue;
        }
        var items := outcome.items;
        saved, newCount, errors := SaveCountyItems(items, saved, newCount, errors);
      }
      assert counties[..|counties|] == counties;
    }
  }

  // ---------------------------------------------------------------------
  // one item

  /** The keys the loops read with `item[...]`; a missing one raises
      `KeyError` before the table is touched. */
  const RequiredKeys: set<Key> :=
    {TitleKey, AddrKey, LevelKey, PatternKey, RentKey, AreaKey, UrlKey, SerialKey}

  /** `item.get(key, '')`. */
  function Get(item: Item, key: Key): string
  {
    if key in item then item[key] else ""
  }

  /** The `defaults` dictionary built from an item. */
  function RowOf(item: Item): (row: Row)
    requires RequiredKeys <= item.Keys
    ensures row.url == item[UrlKey] && row.title == item[TitleKey] && row.rent == item[RentKey]
    ensures row.addr == item[AddrKey] && row.level == item[LevelKey] &&
            row.pattern == item[PatternKey] && row.area == item[AreaKey]
    ensures row.parking == Get(item, ParkingKey) && row.agent == Get(item, AgentKey) &&
            row.updateTime == Get(item, UpdateTimeKey)
  {
    Row(item[TitleKey], item[AddrKey], item[LevelKey], item[PatternKey], item[RentKey],
        Get(item, ParkingKey), item[AreaKey], Get(item, AgentKey), Get(item, UpdateTimeKey),
        item[UrlKey])
  }

  /** The counters and results of a loop: the table, the serials stored
      (`current_listings`), the new-listing count and the error count. */
  datatype Tally = Tally(rows: Table, saved: seq<string>, newCount: nat, errors: nat)

  /** One turn of the loop body. */
  function Record(t: Tally, item: Item): (t': Tally)
    ensures t'.newCount >= t.newCount && t'.errors >= t.errors && |t'.saved| >= |t.saved|
    ensures |t'.saved| + t'.errors == |t.saved| + t.errors + 1
    ensures t.rows.Keys <= t'.rows.Keys
    ensures t'.errors == t.errors ==> SerialKey in item && item[SerialKey] in t'.rows
  {
    if !(RequiredKeys <= item.Keys) then t.(errors := t.errors + 1)
    else
      var serial := item[SerialKey];
      var row := RowOf(item);
      match UpsertResultOf(t.rows, serial, row)
      case UrlConflict => t.(errors := t.errors + 1)
      case Updated => t.(rows := Upsert(t.rows, serial, row), saved := t.saved + [serial])
      case Created => Tally(Upsert(t.rows, serial, row), t.saved + [serial], t.newCount + 1, t.errors)
  }

  /** The loop over `items`, starting from the counters `t`. */
  function RunFrom(t: Tally, items: seq<Item>): (t': Tally)
    ensures |t'.saved| + t'.errors == |t.saved| + t.errors + |items|
    ensures t'.errors >= t.errors && t'.newCount >= t.newCount
    ensures t.rows.Keys <= t'.rows.Keys
    decreases |items|
  {
    if items == [] then t
    else Record(RunFrom(t, items[..|items| - 1]), items[|items| - 1])
  }

  /** The loop over `items` from zeroed counters. */
  function Run(rows: Table, items: seq<Item>): Tally
  {
    RunFrom(Tally(rows, [], 0, 0), items)
  }

  /** What the counters mean: each item is either stored or counted as an
      error; the new-listing count is the number of rows the table gained
      and never exceeds the number stored; rows are never removed; every
      stored serial has a row; urls stay unique. */
  lemma {:induction false} RunFromCounts(t: Tally, items: seq<Item>)
    ensures var t' := RunFrom(t, items);
      |t'.saved| + t'.errors == |t.saved| + t.errors + |items| &&
      t'.errors >= t.errors && t'.newCount >= t.newCount &&
      t'.newCount - t.newCount <= |t'.saved| - |t.saved| &&
      |t'.rows| == |t.rows| + (t'.newCount - t.newCount) &&
      t.rows.Keys <= t'.rows.Keys &&
      (UrlsUnique(t.rows) ==> UrlsUnique(t'.rows))
    decreases |items|
  {
    if items != [] {
      var t0 := RunFrom(t, items[..|items| - 1]);
      RunFromCounts(t, items[..|items| - 1]);
      var item := items[|items| - 1];
      if RequiredKeys <= item.Keys {
        UpsertSpec(t0.rows, item[SerialKey], RowOf(item));
      }
    }
  }

  /** The counters of one run from empty counters. */
  lemma RunCounts(rows: Table, items: seq<Item>)
    ensures var t := Run(rows, items);
      |t.saved| + t.errors == |items| &&
      t.newCount <= |t.saved| &&
      |t.rows| == |rows| + t.newCount &&
      rows.Keys <= t.rows.Keys &&
      (UrlsUnique(rows) ==> UrlsUnique(t.rows))
  {
    RunFromCounts(Tally(rows, [], 0, 0), items);
  }

  /** Running the loop over `xs + ys` is running it over `xs` and then
      over `ys`. */
  lemma {:induction false} RunFromAppend(t: Tally, xs: seq<Item>, ys: seq<Item>)
    ensures RunFrom(t, xs + ys) == RunFrom(RunFrom(t, xs), ys)
    decreases |ys|
  {
    if ys == [] {
      assert xs + ys == xs;
    } else {
      assert (xs + ys)[..|xs + ys| - 1] == xs + ys[..|ys| - 1];
      RunFromAppend(t, xs, ys[..|ys| - 1]);
    }
  }

  /** An error counted before the loop only shifts the error count. */
  lemma {:induction false} RunFromMoreErrors(t: Tally, items: seq<Item>, e: nat)
    ensures RunFrom(t.(errors := t.errors + e), items) ==
            RunFrom(t, items).(errors := RunFrom(t, items).errors + e)
    decreases |items|
  {
    if items != [] {
      RunFromMoreErrors(t, items[..|items| - 1], e);
    }
  }

  /** Each item's serial has a row after the run, unless that item
      failed. */
  lemma {:induction false} SavedSerialsHaveRows(t: Tally, items: seq<Item>)
    ensures var t' := RunFrom(t, items);
      forall i :: 0 <= i < |t'.saved| ==> t'.saved[i] in t'.rows || (i < |t.saved| && t.saved[i] !in t.rows)
    decreases |items|
  {
    if items != [] {
      SavedSerialsHaveRows(t, items[..|items| - 1]);
      RunFromCounts(t, items[..|items| - 1]);
    }
  }

  // ---------------------------------------------------------------------
  // re-running

  /** After a run without errors, every item's serial has a row. */
  lemma {:induction false} NoErrorsAllPresent(t: Tally, items: seq<Item>)
    requires RunFrom(t, items).errors == t.errors
    ensures forall i :: 0 <= i < |items| ==>
      SerialKey in items[i] && items[i][SerialKey] in RunFrom(t, items).rows
    decreases |items|
  {
    if items != [] {
      var init := items[..|items| - 1];
      var last := items[|items| - 1];
      var t0 := RunFrom(t, init);
      var t1 := RunFrom(t, items);
      RunFromCounts(t, init);
      assert t1 == Record(t0, last);
      NoErrorsAllPresent(t, init);
      forall i | 0 <= i < |items|
        ensures SerialKey in items[i] && items[i][SerialKey] in t1.rows
      {
        if i < |items| - 1 {
          assert items[i] == init[i];
        }
      }
    }
  }

  lemma RunFromOne(t: Tally, item: Item)
    ensures RunFrom(t, [item]) == Record(t, item)
  {
    assert [item][..0] == [];
  }

  /** A run in which every item's serial already has a row creates
      nothing. */
  lemma {:induction false} AllPresentCreatesNothing(t: Tally, items: seq<Item>)
    requires forall i :: 0 <= i < |items| ==>
      SerialKey in items[i] && items[i][SerialKey] in t.rows
    ensures RunFrom(t, items).newCount == t.newCount
    decreases |items|
  {
    if items != [] {
      var init := items[..|items| - 1];
      AllPresentCreatesNothing(t, init);
      RunFromCounts(t, init);
    }
  }

  /** Re-running the same items after a run without errors creates no
      listing. */
  lemma RerunCreatesNothing(rows: Table, items: seq<Item>)
    requires Run(rows, items).errors == 0
    ensures Run(Run(rows, items).rows, items).newCount == 0
  {
    NoErrorsAllPresent(Tally(rows, [], 0, 0), items);
    AllPresentCreatesNothing(Tally(Run(rows, items).rows, [], 0, 0), items);
  }

  /** Without that condition a re-run can create a listing. When the
      table holds only the serial of `b`, under the url of `a`: in the
      first run `a` fails on that url and `b` moves its row to another url;
      in the second run `a` is created. */
  lemma RerunCanCreate(rows: Table, a: Item, b: Item)
    requires RequiredKeys <= a.Keys && RequiredKeys <= b.Keys
    requires a[SerialKey] != b[SerialKey] && a[UrlKey] != b[UrlKey]
    requires rows.Keys == {b[SerialKey]} && rows[b[SerialKey]].url == a[UrlKey]
    ensures Run(rows, [a, b]).errors == 1
    ensures Run(Run(rows, [a, b]).rows, [a, b]).newCount == 1
  {
    var items := [a, b];
    var first, second := a[SerialKey], b[SerialKey];
    assert items[..1] == [a];
    // first run: `a` clashes with the url of `second`, `b` updates `second`
    RunFromOne(Tally(rows, [], 0, 0), a);
    assert second in rows && second != first && rows[second].url == a[UrlKey];
    assert Run(rows, [a]) == Tally(rows, [], 0, 1);
    assert !UrlTakenByOther(rows, second, b[UrlKey]);
    var rows1 := rows[second := RowOf(b)];
    assert Run(rows, items) == Tally(rows1, [second], 0, 1);
    // second run: the url of `a` is free now, so `a` is created
    assert rows1.Keys == {second} && rows1[second].url == b[UrlKey];
    assert !UrlTakenByOther(rows1, first, a[UrlKey]);
    RunFromOne(Tally(rows1, [], 0, 0), a);
    assert Run(rows1, items[..1]).newCount == 1;
  }

  // ---------------------------------------------------------------------
  // what reaches the table

  /** A listing from the browser crawler is stored field for field. */
  lemma BrowserItemStored(r: Listing)
    ensures RequiredKeys <= AsItem(r).Keys
    ensures RowOf(AsItem(r)) ==
      Row(r.title, r.addr, r.level, r.pattern, r.rent, r.parking, r.area, r.agent, r.updateTime, r.url)
  {
  }

  /** A listing from the HTTP crawler loses its `landlord` text: the loops
      read `agent`, which that crawler does not set. */
  lemma HttpItemLosesLandlord(r: Listing)
    ensures RequiredKeys <= CrawlerRequests.AsHttpItem(r).Keys
    ensures RowOf(CrawlerRequests.AsHttpItem(r)) ==
      Row(r.title, r.addr, r.level, r.pattern, r.rent, r.parking, r.area, "", r.updateTime, r.url)
  {
  }

  /** `update_or_create` does not validate choices: a parking text outside
      the declared choices is stored as it is. */
  lemma ParkingChoicesNotEnforced(r: Listing)
    requires r.parking !in ParkingChoices
    ensures r.serial in Run(map[], [AsItem(r)]).rows
    ensures Run(map[], [AsItem(r)]).rows[r.serial].parking !in ParkingChoices
  {
    var item := AsItem(r);
    BrowserItemStored(r);
    RunFromOne(Tally(map[], [], 0, 0), item);
    assert !UrlTakenByOther(map[], r.serial, r.url);
  }

  // ---------------------------------------------------------------------
  // all counties

  /** The counties `get_all_rent_list` crawls. */
  const AllRentCounties: seq<string> := ["澎湖縣", "金門縣", "連江縣", "宜蘭縣", "花蓮縣", "台東縣"]

  /** What `get_rent_data` gives for a county: an exception, or items. */
  datatype Crawl = CrawlFailed | Crawled(items: seq<Item>)

  /** The loop of `get_all_rent_list` over `counties`. */
  function CountiesRun(rows: Table, counties: seq<string>, crawl: string -> Crawl): (t: Tally)
    ensures rows.Keys <= t.rows.Keys
    ensures t.errors >= CrawlFailures(counties, crawl)
    decreases |counties|
  {
    if counties == [] then Tally(rows, [], 0, 0)
    else
      var t := CountiesRun(rows, counties[..|counties| - 1], crawl);
      match crawl(counties[|counties| - 1])
      case CrawlFailed => t.(errors := t.errors + 1)
      case Crawled(items) => RunFrom(t, items)
  }

  /** The items of the counties whose crawl succeeded, in county order. */
  function CrawledItems(counties: seq<string>, crawl: string -> Crawl): seq<Item>
    decreases |counties|
  {
    if counties == [] then []
    else
      CrawledItems(counties[..|counties| - 1], crawl) +
      match crawl(counties[|counties| - 1])
      case CrawlFailed => []
      case Crawled(items) => items
  }

  /** The number of counties whose crawl failed. */
  function CrawlFailures(counties: seq<string>, crawl: string -> Crawl): (n: nat)
    ensures n <= |counties|
    decreases |counties|
  {
    if counties == [] then 0
    else CrawlFailures(counties[..|counties| - 1], crawl) +
         (if crawl(counties[|counties| - 1]).CrawlFailed? then 1 else 0)
  }

  /** A failed county does not stop the others: the all-counties run
      stores exactly what one batch over the items of the successful crawls
      stores, and its error count is the failed crawls plus the items that
      failed to save. */
  lemma {:induction false} CountiesAsOneBatch(rows: Table, counties: seq<string>, crawl: string -> Crawl)
    ensures var t := CountiesRun(rows, counties, crawl);
      var b := Run(rows, CrawledItems(counties, crawl));
      t.rows == b.rows && t.newCount == b.newCount && t.saved == b.saved &&
      t.errors == b.errors + CrawlFailures(counties, crawl)
    decreases |counties|
  {
    if counties != [] {
      var init := counties[..|counties| - 1];
      CountiesAsOneBatch(rows, init, crawl);
      var t := CountiesRun(rows, init, crawl);
      var b := Run(rows, CrawledItems(init, crawl));
      var f := CrawlFailures(init, crawl);
      assert t == b.(errors := b.errors + f);
      match crawl(counties[|counties| - 1])
      case CrawlFailed =>
        assert CrawledItems(counties, crawl) == CrawledItems(init, crawl) + [];
        assert CrawledItems(init, crawl) + [] == CrawledItems(init, crawl);
      case Crawled(items) =>
        RunFromAppend(Tally(rows, [], 0, 0), CrawledItems(init, crawl), items);
        assert b == b.(errors := b.errors + 0).(errors := b.errors);
        RunFromMoreErrors(b, items, f);
    }
  }
}

=== FILE: text.dfy ===
/** String operations with the meaning Python's `str` methods give them:
    `split` and `join` on one separator character, `rstrip` of one
    character, `replace` (left to right, non-overlapping), `startswith`,
    the `in` substring test, decimal digits and code-point ordering. */
module Text {

  datatype Option<T> = None | Some(value: T)

  predicate IsDigit(c: char) { '0' <= c <= '9' }

  predicate AllDigits(s: string) { forall i :: 0 <= i < |s| ==> IsDigit(s[i]) }

  /** `int(d)` for a string of decimal digits. */
  function DecimalValue(d: string): nat
    requires AllDigits(d)
  {
    if d == [] then 0
    else 10 * DecimalValue(d[..|d| - 1]) + ((d[|d| - 1] as int) - ('0' as int))
  }

  // ---------------------------------------------------------------------
  // split / join

  /** `s.split(sep)`: the pieces between separators, one more piece than
      there are separators. */
  function Split(s: string, sep: char): (parts: seq<string>)
    ensures |parts| >= 1
    ensures forall i :: 0 <= i < |parts| ==> sep !in parts[i]
    decreases |s|
  {
    if s == [] then [""]
    else if s[0] == sep then [""] + Split(s[1..], sep)
    else
      var rest := Split(s[1..], sep);
      [[s[0]] + rest[0]] + rest[1..]
  }

  /** `sep.join(parts)`. */
  function Join(parts: seq<string>, sep: char): string
  {
    if |parts| == 0 then ""
    else if |parts| == 1 then parts[0]
    else parts[0] + [sep] + Join(parts[1..], sep)
  }

  /** Two pieces are joined by one separator. */
  lemma JoinTwo(a: string, b: string, sep: char)
    ensures Join([a, b], sep) == a + [sep] + b
  {
    assert [a, b][1..] == [b];
  }

  /** The pieces of `s.split(sep)` that are not empty, in order. */
  function NonEmpty(parts: seq<string>): (r: seq<string>)
    ensures forall i :: 0 <= i < |r| ==> r[i] != "" && r[i] in parts
    ensures |r| <= |parts|
  {
    if parts == [] then []
    else if parts[0] == "" then NonEmpty(parts[1..])
    else [parts[0]] + NonEmpty(parts[1..])
  }

  /** `s` does not hold two separators in a row. */
  predicate NoDoubled(s: string, sep: char)
  {
    forall i :: 0 <= i < |s| - 1 ==> !(s[i] == sep && s[i + 1] == sep)
  }

  /** Joining non-empty pieces that hold no separator gives a string with
      no doubled separator that neither starts nor ends with one. */
  lemma {:induction false} JoinClean(parts: seq<string>, sep: char)
    requires forall i :: 0 <= i < |parts| ==> parts[i] != "" && sep !in parts[i]
    ensures var j := Join(parts, sep);
      NoDoubled(j, sep) && (j == "" <==> parts == []) &&
      (j != "" ==> j[0] != sep && j[|j| - 1] != sep)
  {
    if |parts| > 1 {
      var p := parts[0];
      var rest := Join(parts[1..], sep);
      JoinClean(parts[1..], sep);
      var j := p + [sep] + rest;
      assert Join(parts, sep) == j;
      forall i | 0 <= i < |j| - 1
        ensures !(j[i] == sep && j[i + 1] == sep)
      {
        if i < |p| {
          assert j[i] == p[i];
        } else if i > |p| {
          assert j[i] == rest[i - |p| - 1] && j[i + 1] == rest[i - |p|];
        }
      }
      assert j[0] == p[0];
      assert j[|j| - 1] == rest[|rest| - 1];
    } else if |parts| == 1 {
      var p := parts[0];
      assert sep != p[0] && sep != p[|p| - 1] by {
        assert p[0] in p && p[|p| - 1] in p;
      }
      forall i | 0 <= i < |p| - 1 ensures !(p[i] == sep && p[i + 1] == sep) {
        assert p[i] in p;
      }
    }
  }

  /** Splitting a join of separator-free pieces gives the pieces back. */
  lemma {:induction false} SplitJoin(parts: seq<string>, sep: char)
    requires |parts| >= 1
    requires forall i :: 0 <= i < |parts| ==> sep !in parts[i]
    ensures Split(Join(parts, sep), sep) == parts
    decreases |parts|, |parts[0]|
  {
    var p := parts[0];
    if p == [] {
      if |parts| > 1 {
        SplitJoin(parts[1..], sep);
        assert Join(parts, sep) == [sep] + Join(parts[1..], sep);
        SplitAfterSep(Join(parts[1..], sep), sep);
      }
    } else {
      var parts' := [p[1..]] + parts[1..];
      assert sep !in p[1..] by {
        forall k | 0 <= k < |p| - 1 ensures p[1..][k] != sep { assert p[k + 1] in p; }
      }
      forall i | 0 <= i < |parts'| ensures sep !in parts'[i] {
        if i > 0 { assert parts'[i] == parts[i]; }
      }
      SplitJoin(parts', sep);
      assert p[0] in p;
      JoinFirstChar(parts, sep);
      SplitAfterChar(p[0], Join(parts', sep), sep);
      assert p == [p[0]] + p[1..];
    }
  }

  /** Joining pieces whose first one is non-empty starts with that piece's
      first character, followed by the join with that character removed. */
  lemma JoinFirstChar(parts: seq<string>, sep: char)
    requires |parts| >= 1 && parts[0] != []
    ensures Join(parts, sep) == [parts[0][0]] + Join([parts[0][1..]] + parts[1..], sep)
  {
    var p := parts[0];
    var parts' := [p[1..]] + parts[1..];
    assert p == [p[0]] + p[1..];
    if |parts| > 1 {
      assert parts'[1..] == parts[1..];
      assert Join(parts', sep) == p[1..] + [sep] + Join(parts[1..], sep);
    }
  }

  /** A leading separator starts with an empty piece. */
  lemma SplitAfterSep(s: string, sep: char)
    ensures Split([sep] + s, sep) == [""] + Split(s, sep)
  {
    assert ([sep] + s)[1..] == s;
  }

  /** A leading character other than the separator joins the first
      piece. */
  lemma SplitAfterChar(c: char, s: string, sep: char)
    requires c != sep
    ensures Split([c] + s, sep) == [[c] + Split(s, sep)[0]] + Split(s, sep)[1..]
  {
    assert ([c] + s)[1..] == s;
  }

  // ---------------------------------------------------------------------
  // rstrip

  /** `s.rstrip(c)`: `s` without its trailing run of `c`. */
  function RStrip(s: string, c: char): (r: string)
    ensures r <= s
    ensures r == [] || r[|r| - 1] != c
    ensures forall i :: |r| <= i < |s| ==> s[i] == c
  {
    if s != [] && s[|s| - 1] == c then RStrip(s[..|s| - 1], c) else s
  }

  /** The last piece of `s.split(sep)` is the longest suffix of `s` without
      a separator: all of `s`, or the text after its last separator. */
  lemma {:induction false} LastPiece(s: string, sep: char)
    ensures var parts := Split(s, sep); var p := parts[|parts| - 1];
      |p| <= |s| && s[|s| - |p|..] == p &&
      (|parts| == 1 <==> p == s) &&
      (|p| == |s| || s[|s| - |p| - 1] == sep)
    decreases |s|
  {
    if s != [] {
      var s' := s[1..];
      LastPiece(s', sep);
      var rest := Split(s', sep);
      var q := rest[|rest| - 1];
      assert q == s[|s| - |q|..] by {
        assert s'[|s'| - |q|..] == s[|s| - |q|..];
      }
      assert |q| == |s| - 1 || s[|s| - |q| - 1] == sep by {
        if |q| < |s'| { assert s'[|s'| - |q| - 1] == s[|s| - |q| - 1]; }
      }
      if s[0] == sep {
        LastPieceAfterSep(s, sep, rest, q);
      } else {
        LastPieceInside(s, sep, rest, q);
      }
    }
  }

  lemma LastPieceAfterSep(s: string, sep: char, rest: seq<string>, q: string)
    requires s != [] && s[0] == sep && rest == Split(s[1..], sep) && q == rest[|rest| - 1]
    requires |q| <= |s| - 1 && q == s[|s| - |q|..]
    requires |q| == |s| - 1 || s[|s| - |q| - 1] == sep
    ensures var parts := Split(s, sep);
      parts[|parts| - 1] == q && |parts| > 1 && q != s && (|q| == |s| || s[|s| - |q| - 1] == sep)
  {
    assert s == [sep] + s[1..];
    SplitAfterSep(s[1..], sep);
  }

  lemma LastPieceInside(s: string, sep: char, rest: seq<string>, q: string)
    requires s != [] && s[0] != sep && rest == Split(s[1..], sep) && q == rest[|rest| - 1]
    requires |q| <= |s| - 1 && q == s[|s| - |q|..]
    requires |rest| == 1 <==> q == s[1..]
    requires |q| == |s| - 1 || s[|s| - |q| - 1] == sep
    ensures var parts := Split(s, sep);
      |parts| == |rest| &&
      (|rest| > 1 ==> parts[|parts| - 1] == q && q != s && s[|s| - |q| - 1] == sep) &&
      (|rest| == 1 ==> parts[0] == s)
  {
    assert s == [s[0]] + s[1..];
    SplitAfterChar(s[0], s[1..], sep);
  }

  // ---------------------------------------------------------------------
  // replace

  /** `s.replace(pat, rep)`: scans left to right and replaces every
      non-overlapping occurrence of `pat`. */
  function ReplaceAll(s: string, pat: string, rep: string): string
    requires pat != []
    decreases |s|
  {
    if |s| < |pat| then s
    else if s[..|pat|] == pat then rep + ReplaceAll(s[|pat|..], pat, rep)
    else [s[0]] + ReplaceAll(s[1..], pat, rep)
  }

  /** Removing a pattern never makes a string longer. */
  lemma {:induction false} RemoveShrinks(s: string, pat: string)
    requires pat != []
    ensures |ReplaceAll(s, pat, "")| <= |s|
    decreases |s|
  {
    if |s| >= |pat| {
      if s[..|pat|] == pat {
        RemoveShrinks(s[|pat|..], pat);
      } else {
        RemoveShrinks(s[1..], pat);
      }
    }
  }

  /** The number of occurrences of `c` in `s`. */
  function Count(s: string, c: char): nat
  {
    if s == [] then 0 else (if s[0] == c then 1 else 0) + Count(s[1..], c)
  }

  /** The characters of `s` other than `c`, in their order. */
  function Without(s: string, c: char): string
  {
    if s == [] then [] else (if s[0] == c then [] else [s[0]]) + Without(s[1..], c)
  }

  /** Replacing a single character by nothing deletes every occurrence of it
      and nothing else. */
  lemma {:induction false} RemoveChar(s: string, c: char)
    ensures var r := ReplaceAll(s, [c], "");
      r == Without(s, c) &&
      c !in r && |r| == |s| - Count(s, c) &&
      (c !in s ==> r == s) &&
      (forall x :: x != c ==> (x in r <==> x in s))
    decreases |s|
  {
    if s != [] {
      RemoveChar(s[1..], c);
      assert s[..1] == [s[0]];
      assert s == [s[0]] + s[1..];
    }
  }

  // ---------------------------------------------------------------------
  // startswith / in

  predicate StartsWith(s: string, prefix: string)
  {
    |prefix| <= |s| && s[..|prefix|] == prefix
  }

  /** Python's `p in s` for strings. */
  predicate Contains(s: string, p: string)
  {
    exists i :: 0 <= i <= |s| - |p| && OccursAt(s, p, i)
  }

  /** `p` occurs in `s` starting at index `i`. */
  predicate OccursAt(s: string, p: string, i: int)
  {
    0 <= i <= |s| - |p| && s[i..i + |p|] == p
  }

  /** The index of the first candidate that `s` starts with. */
  function FirstPrefix(candidates: seq<string>, s: string): (r: Option<nat>)
    ensures r.None? <==> forall j :: 0 <= j < |candidates| ==> !StartsWith(s, candidates[j])
    ensures r.Some? ==> (r.value < |candidates| && StartsWith(s, candidates[r.value]) &&
                         forall j :: 0 <= j < r.value ==> !StartsWith(s, candidates[j]))
  {
    if candidates == [] then None
    else if StartsWith(s, candidates[0]) then Some(0)
    else match FirstPrefix(candidates[1..], s)
      case None => None
      case Some(k) => Some(k + 1)
  }

  /** The index of the first candidate that occurs in `s`. */
  function FirstContained(candidates: seq<string>, s: string): (r: Option<nat>)
    ensures r.None? <==> forall j :: 0 <= j < |candidates| ==> !Contains(s, candidates[j])
    ensures r.Some? ==> (r.value < |candidates| && Contains(s, candidates[r.value]) &&
                         forall j :: 0 <= j < r.value ==> !Contains(s, candidates[j]))
  {
    if candidates == [] then None
    else if Contains(s, candidates[0]) then Some(0)
    else match FirstContained(candidates[1..], s)
      case None => None
      case Some(k) => Some(k + 1)
  }

  /** Two prefixes of the same string with the same length are equal. */
  lemma SamePrefix(s: string, a: string, b: string)
    requires StartsWith(s, a) && StartsWith(s, b) && |a| == |b|
    ensures a == b
  {
  }

  // ---------------------------------------------------------------------
  // ordering

  /** Python's `a < b` on strings: lexicographic by code point. */
  predicate LexLess(a: string, b: string)
  {
    if a == [] then b != []
    else if b == [] then false
    else if a[0] != b[0] then a[0] < b[0]
    else LexLess(a[1..], b[1..])
  }

  lemma {:induction false} LexIrreflexive(a: string)
    ensures !LexLess(a, a)
  {
    if a != [] { LexIrreflexive(a[1..]); }
  }

  lemma {:induction false} LexTotal(a: string, b: string)
    ensures a == b || LexLess(a, b) || LexLess(b, a)
  {
    if a != [] && b != [] && a[0] == b[0] {
      LexTotal(a[1..], b[1..]);
      if a[1..] == b[1..] { assert a == [a[0]] + a[1..] && b == [b[0]] + b[1..]; }
    }
  }

  lemma {:induction false} LexAsymmetric(a: string, b: string)
    requires LexLess(a, b)
    ensures !LexLess(b, a)
  {
    if a != [] && b != [] && a[0] == b[0] { LexAsymmetric(a[1..], b[1..]); }
  }

  lemma {:induction false} LexTransitive(a: string, b: string, c: string)
    requires LexLess(a, b) && LexLess(b, c)
    ensures LexLess(a, c)
  {
    if a != [] && b != [] && c != [] && a[0] == b[0] && b[0] == c[0] {
      LexTransitive(a[1..], b[1..], c[1..]);
    }
  }
}

=== FILE: views.dfy ===
/** The string rules of listings/views.py: the city an address belongs to
    (`preprocess_listing_data`) and the normalised sort parameters of
    `search_database`. */
module Views {
  import opened Text
  import opened Sorting

  // ---------------------------------------------------------------------
  // city classification

  /** The keys of `TAIWAN_CITIES`, in declaration order. */
  const TaiwanCities: seq<string> := [
    "台北市", "新北市", "桃園市", "台中市", "台南市", "高雄市", "基隆市", "新竹市",
    "嘉義市", "新竹縣", "苗栗縣", "彰化縣", "南投縣", "雲林縣", "嘉義縣", "屏東縣",
    "澎湖縣", "金門縣", "連江縣", "宜蘭縣", "花蓮縣", "台東縣"]

  /** The class of an address that names no known city. */
  const OtherCity: string := "其他"

  /** `sorted(cities, key=len, reverse=True)`: a stable sort by
      decreasing length. */
  function LongestFirst(cities: seq<string>): (r: seq<string>)
    ensures multiset(r) == multiset(cities)
    ensures forall c :: c in r <==> c in cities
    ensures forall i, j :: 0 <= i < j < |r| ==> |r[i]| >= |r[j]|
  {
    var r := SortBy(cities, (c: string) => -|c|);
    assert forall c :: c in r <==> c in multiset(r);
    r
  }

  /** Names of one length keep their order under the longest-first
      sort. */
  lemma LongestFirstSameLength(cities: seq<string>, n: nat)
    requires forall i :: 0 <= i < |cities| ==> |cities[i]| == n
    ensures LongestFirst(cities) == cities
  {
    SortByConstantKey(cities, (c: string) => -|c|, -(n as int));
  }

  /** The loops of `preprocess_listing_data` over a city list: the first
      city (longest first) that the address starts with, else the first
      city in list order that occurs in it, else `其他`. */
  function ClassifyIn(cities: seq<string>, addr: string): (city: string)
    ensures city == OtherCity || city in cities
  {
    var sorted := LongestFirst(cities);
    match FirstPrefix(sorted, addr)
    case Some(k) => sorted[k]
    case None =>
      match FirstContained(cities, addr)
      case Some(k) => cities[k]
      case None => OtherCity
  }

  /** The city `preprocess_listing_data` assigns to an address. */
  function ClassifyCity(addr: string): (city: string)
    ensures city == OtherCity || city in TaiwanCities
  {
    ClassifyIn(TaiwanCities, addr)
  }

  /** An address that starts with a listed name is classified as that name
      when all names have one length: two of them cannot both start it. */
  lemma {:induction false} ClassifyInByPrefix(cities: seq<string>, n: nat, addr: string, i: int)
    requires forall j :: 0 <= j < |cities| ==> |cities[j]| == n
    requires 0 <= i < |cities| && StartsWith(addr, cities[i])
    ensures ClassifyIn(cities, addr) == cities[i]
  {
    LongestFirstSameLength(cities, n);
    var k := FirstPrefix(cities, addr);
    SamePrefix(addr, cities[k.value], cities[i]);
  }

  /** Otherwise the first name in list order that occurs in the address is
      chosen, and `其他` when none does. */
  lemma ClassifyInBySubstring(cities: seq<string>, addr: string)
    requires forall j :: 0 <= j < |cities| ==> !StartsWith(addr, cities[j])
    ensures (forall j :: 0 <= j < |cities| ==> !Contains(addr, cities[j])) ==>
            ClassifyIn(cities, addr) == OtherCity
    ensures (exists j :: 0 <= j < |cities| && Contains(addr, cities[j])) ==>
            exists k :: 0 <= k < |cities| && ClassifyIn(cities, addr) == cities[k] &&
              Contains(addr, cities[k]) &&
              forall j :: 0 <= j < k ==> !Contains(addr, cities[j])
  {
    var sorted := LongestFirst(cities);
    forall j | 0 <= j < |sorted| ensures !StartsWith(addr, sorted[j]) {
      assert sorted[j] in cities;
    }
    assert FirstPrefix(sorted, addr).None?;
    var m := FirstContained(cities, addr);
    if m.Some? {
      assert ClassifyIn(cities, addr) == cities[m.value];
    }
  }

  /** Every name in `TAIWAN_CITIES` has three characters. */
  lemma TaiwanCityNamesHaveThreeChars()
    ensures forall i :: 0 <= i < |TaiwanCities| ==> |TaiwanCities[i]| == 3
  {
  }

  /** An address that starts with a city name gets that city. */
  lemma ClassifyByPrefix(addr: string, i: int)
    requires 0 <= i < |TaiwanCities| && StartsWith(addr, TaiwanCities[i])
    ensures ClassifyCity(addr) == TaiwanCities[i]
  {
    TaiwanCityNamesHaveThreeChars();
    ClassifyInByPrefix(TaiwanCities, 3, addr, i);
  }

  // ---------------------------------------------------------------------
  // sort parameters

  /** The columns `search_database` lets a request sort by. */
  const SortFields: seq<string> :=
    ["serial", "title", "addr", "level", "pattern", "rent", "parking", "area", "agent"]

  /** The sort column, the direction and the `order_by` prefix. */
  datatype Ordering = Ordering(sort: string, order: string, prefix: string)

  /** The `sort` and `order` query parameters after the whitelist checks;
      None stands for an absent parameter. */
  function NormaliseSort(sortParam: Option<string>, orderParam: Option<string>): (o: Ordering)
    ensures o.sort in SortFields
    ensures o.order == "asc" || o.order == "desc"
    ensures sortParam.Some? && sortParam.value in SortFields ==> o.sort == sortParam.value
    ensures sortParam.None? || sortParam.value !in SortFields ==> o.sort == "serial"
    ensures orderParam == Some("desc") <==> o.order == "desc"
    ensures o.prefix == (if o.order == "desc" then "-" else "")
  {
    var sort := if sortParam.Some? then sortParam.value else "serial";
    var order := if orderParam.Some? then orderParam.value else "asc";
    var sort := if sort !in SortFields then "serial" else sort;
    var order := if order != "asc" && order != "desc" then "asc" else order;
    Ordering(sort, order, if order == "asc" then "" else "-")
  }

  /** Normalising parameters that are already normal changes nothing. */
  lemma NormaliseSortIdempotent(sortParam: Option<string>, orderParam: Option<string>)
    ensures var o := NormaliseSort(sortParam, orderParam);
      NormaliseSort(Some(o.sort), Some(o.order)) == o
  {
  }
}
